=== FILE: README.md ===
# Bill reminder — a Dafny model

This project models the core of a single-page bill-reminder ("lembretes de
boletos") application. A bill has a name, an amount, a due date and time, and
a paid flag. The application does the following:

- it keeps the bills newest first and lets the user mark each one paid or
  pending;
- it shows the bills filtered by a search term and by the "show paid" switch,
  sorted by due date and time, by name or by amount, in a pending group and a
  paid group;
- on each card it shows an urgency state: paid, overdue, due within three
  days, or on track;
- it validates the entry form before handing a new bill over;
- it raises alerts at three thresholds before and around the due instant.

There are two alert paths:

- **Timers.** When notification permission is granted, every change of the
  bill list starts one timer per pending threshold of every unpaid bill that
  is not yet due; without it, the pass shows an error toast and starts
  nothing. The thresholds are 24 hours before the due instant, 2 hours before
  it, and the due instant itself. When a timer goes off, it shows a toast and
  records `${id}-${type}` in a fired-set; it tests the permission again, and
  plays a sound and shows a platform notification only while it is still
  granted.
- **The sweep.** Once at each change and then every minute, the sweep tests
  each unpaid bill against three strict windows:
  - due within the next 24 hours;
  - due within the next 2 hours;
  - due within the last hour.

  It alerts once per window and records `${id}-24h`, `${id}-2h` or
  `${id}-expired` in the same fired-set.

Modules, one per part of the program:

| module | file | models |
|---|---|---|
| `Wrappers`, `Bills` | types.dfy | `Option`; the `Bill` and `BillFormData` records |
| `Text`, `Seqs` | text.dfy | `trim`, lower-casing, `includes`, the string order; subsequences |
| `Urgency` | urgency.dfy | the card's state, border and labels (BillItem) |
| `ListView` | listview.dfy | filter, sort, grouping and the sort button (BillList) |
| `Form` | form.dfy | amount input filter, submit validation and reset (BillForm) |
| `Alerts` | alerts.dfy | fired-set keys, titles, tags and toasts shared by both alert paths |
| `Sweep` | sweep.dfy | `checkUpcomingBills` and `clearCheckedNotifications` |
| `Scheduler` | scheduler.dfy | the permission request, `scheduleNotification`, the scheduling pass and the timer callback |
| `Collection` | collection.dfy | `handleAddBill` and `handleTogglePaid` (the index page) |

How the model represents the program:

- **Time** is an integer number of milliseconds. A bill carries `dueAt`, the
  instant the application gets by parsing `${dueDate}T${dueTime}`. The
  current instant `now` is a parameter.
- **Amounts** are `real`.
- **Timers** are not run. A scheduling pass returns the timers it would start,
  and a timer going off is the explicit step `FireTimer`. A timer's timeout
  is the delay the program hands to `setTimeout`. When a browser actually
  fires it is stated separately (`EffectiveTimeout`): only a timeout that
  fits in a signed 32-bit integer is kept as it is (see "## Findings").
- **The fired-set** (a ref holding a `Set<string>`) is a `set<string>`, passed
  in and returned.
- **The sweep** exists twice in the program: `useNotifications.tsx` plays a
  sound after each of its toasts, and `useNotifications.ts` does not. One
  function models both, with a `withSound` flag that is recorded on each
  alert.

Four behaviours of the code are worth noting; the model follows the code:

- A card has four states only: paid, overdue, due within three days, and on
  track. There is no state of its own for a bill due within 24 hours.
- A bill due exactly now is "due soon", not overdue, because the overdue test
  is a strict `isBefore`.
- Marking a bill paid keeps its fired-set keys; nothing on the index page
  calls `clearCheckedNotifications`.
- The two alert paths share a key only at the `expired` threshold. The timer
  path writes `-warning` and `-urgent` where the sweep writes `-24h` and
  `-2h`, so these keys do not protect each other.

## Model

| member | source | states |
|---|---|---|
| Text.Trim | src/components/BillForm.tsx:51 | `trim` cuts only JavaScript whitespace from either end and leaves a slice that neither starts nor ends with whitespace; it is empty exactly when the name is all whitespace |
| Text.LexLeTotal | src/components/BillList.tsx:28-36 | any two names or date keys are comparable in the order used for sorting |
| Text.LexLeTransitive | src/components/BillList.tsx:28-36 | the sorting order on names and date keys is transitive |
| Text.LexLeAntisymmetric | src/components/BillList.tsx:28-36 | two strings ordered both ways are equal |
| Urgency.Classify | src/components/BillItem.tsx:19-21 | a card is paid, overdue (due strictly before now), due soon (due from now to three days ahead) or on track, each exactly on its interval |
| Urgency.OverdueAndDueSoonExclusive | src/components/BillItem.tsx:19-21 | a paid bill is neither overdue nor due soon, no bill is both, and the two flags agree with the classification |
| Urgency.CardBorder | src/components/BillItem.tsx:25-30 | green exactly for paid bills, destructive exactly for overdue ones, amber exactly for due-soon ones, none exactly for on-track ones |
| Urgency.StatusLabel | src/components/BillItem.tsx:72-91 | no status line for a paid bill; "Vencido", "Vence em breve" or "Em dia" exactly for the overdue, due-soon and on-track states |
| Urgency.LaterDueIsLessUrgent | src/components/BillItem.tsx:19-21 | of two unpaid bills, the one due later is never in a more urgent state |
| Urgency.LaterNowIsMoreUrgent | src/components/BillItem.tsx:17-21 | as time passes an unpaid bill's state only becomes more urgent |
| ListView.FilterBills | src/components/BillList.tsx:22-27 | keeps exactly the bills whose lower-cased name includes the lower-cased term and that are unpaid unless paid bills are shown, each as often as in the input, in input order |
| ListView.FilterKeepsAll | src/components/BillList.tsx:23-27 | an empty search with paid bills shown keeps the whole list |
| ListView.Insert | src/components/BillList.tsx:28-41 | inserting into a sorted list keeps it sorted and adds exactly one copy of the bill |
| ListView.SortBills | src/components/BillList.tsx:28-41 | the sort returns a permutation of its input in non-decreasing date key, name or amount |
| ListView.FilteredBills | src/components/BillList.tsx:22-41 | every shown bill matches the search, no paid bill is shown when paid bills are hidden, every matching bill is shown, nothing is shown more often than it occurs, each shown bill occurs exactly as often as the filter keeps it, nothing is dropped when nothing is filtered, and the list is sorted |
| ListView.SortedKeepsMembers | src/components/BillList.tsx:28-41 | sorting neither adds nor drops a bill |
| ListView.Group | src/components/BillList.tsx:44-45 | the pending or paid group holds exactly the bills of that paid state, in list order |
| ListView.GroupsPartition | src/components/BillList.tsx:44-45 | together the two groups hold each bill exactly as often as the list, so their sizes add up to its size |
| ListView.IndexOf | src/components/BillList.tsx:95 | `indexOf` gives the first position of the mode, or -1 when it is absent |
| ListView.SortModeCycle | src/components/BillList.tsx:93-98 | `NextSortMode`, the sort button's click, goes date, name, amount and back to date; a click always changes the mode and three clicks restore it |
| Form.RecogniseIsAmountPattern | src/components/BillForm.tsx:70 | a two-state left-to-right scan accepts exactly the texts of digits, at most one dot, digits |
| Form.AmountChange | src/components/BillForm.tsx:67-73 | the amount text becomes the typed value exactly when it is digits with at most one dot (the empty text included); otherwise nothing changes, and no other field changes |
| Form.AmountTextStaysInPattern | src/components/BillForm.tsx:24-73 | the amount text is always digits with at most one dot: initially, after typing and after a submit |
| Form.DigitsValuePositive | src/components/BillForm.tsx:38 | a run of digits has a positive value exactly when one of its digits is not zero |
| Form.ParseAmount | src/components/BillForm.tsx:38-52 | a value is produced only for an amount text in the pattern, and it is never negative |
| Form.ParseAmountPositive | src/components/BillForm.tsx:38-52 | an amount text in the pattern parses to a number exactly when it holds a digit, and to a positive one exactly when it holds a non-zero digit |
| Form.DotAmountPassesAsWritten | src/components/BillForm.tsx:38 | the text "." is accepted by the input filter, passes the amount check as written, and parses to no number |
| Form.AmountRejectedMeaning | src/components/BillForm.tsx:38-41 | the corrected check accepts an amount exactly when it holds a non-zero digit, so an accepted amount parses to a positive number; it differs from the written check exactly on non-empty texts without a digit |
| Form.Submit | src/components/BillForm.tsx:29-64 | the handler as written: data is handed over exactly when the name is not blank, the amount passes the written check and a date is picked; the errors come in order (name blank, then amount, then date missing) and each is reported exactly on its case; on an error the fields stay and only the message is set; otherwise the trimmed non-empty name, `parseFloat`'s result for the amount (positive, or NaN), the date and the time (defaulting to 12:00) are handed over and the form returns to its initial state |
| Form.SubmitTwiceSubmitsOnce | src/components/BillForm.tsx:59-63 | a second submit right after a successful one hands nothing over, and a failed submit repeated gives the same result |
| Form.DotAmountIsSubmittedAsNaN | src/components/BillForm.tsx:38-57 | as written, the name "Luz", the amount "." and a date are handed over with a NaN amount; the intended handler rejects the same form on its amount |
| Form.SubmitIntended | src/components/BillForm.tsx:29-64 | the handler with the intended amount check: data is handed over exactly when the name is not blank, the amount parses to a positive number and a date is picked; same errors, order, reset and normalisation as the written handler, and the amount handed over is always a positive number |
| Form.SubmitIntendedAgrees | src/components/BillForm.tsx:38-57 | the written and the intended handler differ only when the amount text is non-empty and parses to NaN; otherwise they leave the same form and hand over the same data |
| Form.SubmitIntendedTwiceSubmitsOnce | src/components/BillForm.tsx:59-63 | with the intended handler too, a second submit right after a success hands nothing over, and a repeated failure gives the same result |
| Alerts.KeyInjective | src/hooks/useNotifications.tsx:173-262 | a fired-set key determines the bill id and the threshold name it was built from |
| Alerts.SweepAndTimerKeysMeetOnlyAtExpired | src/hooks/useNotifications.tsx:173-262 | a sweep key equals a timer key only for the `expired` threshold of the same bill id |
| Alerts.KeyIsNotUuidLike | src/hooks/useNotifications.tsx:196 | no key consists only of hex digits and dashes, so a key never equals a generated bill id |
| Alerts.TitleInjective | src/hooks/useNotifications.tsx:82-100 | an alert title determines the bill name and the threshold |
| Alerts.TagInjective | src/hooks/useNotifications.tsx:118 | a notification tag determines the bill id and the threshold |
| Alerts.AlertToast | src/hooks/useNotifications.tsx:128-146 | the toast carries the threshold's title and a positive duration |
| Sweep.CheckThreshold | src/hooks/useNotifications.tsx:210-268 | one window alerts at most once, only when the bill is in it, with the sweep's sound flag, and records its key |
| Sweep.CheckBill | src/hooks/useNotifications.ts:17-77 | a paid bill, or one whose bare id is in the fired-set, changes nothing; every alert is for one of the bill's windows, with a new key and the sweep's sound flag; afterwards nothing is left to fire for the bill |
| Sweep.CheckUpcomingBills | src/hooks/useNotifications.tsx:191-270 | the fired-set only grows, by exactly the keys of the alerts shown; no alert repeats a key; every alert belongs to an unpaid listed bill in that window whose bare id was not in the fired-set, and carries the sweep's sound flag; afterwards no listed bill has anything left to fire |
| Sweep.AlertCountIsNewKeyCount | src/hooks/useNotifications.tsx:210-262 | a sweep shows exactly as many alerts as it adds keys |
| Sweep.SaturatedSweepIsQuiet | src/hooks/useNotifications.tsx:196-262 | when every bill is paid, skipped or already recorded for each of its windows, the sweep shows nothing and changes nothing |
| Sweep.SweepTwiceFiresNothing | src/hooks/useNotifications.tsx:273-274 | a second sweep at the same instant shows no alert and leaves the fired-set unchanged |
| Sweep.DueNowFiresNothing | src/hooks/useNotifications.ts:24-30 | a bill due exactly now is in no window, so the sweep shows nothing for it and records nothing |
| Sweep.WithinTwoHoursFiresBoth | src/hooks/useNotifications.ts:24-61 | a bill first seen under two hours before its due instant gets the 24-hour and then the 2-hour alert in one sweep |
| Sweep.SweepAddsNoUuidLikeEntry | src/hooks/useNotifications.tsx:222-262 | the sweep records only keys, so it never adds an entry that looks like a generated id |
| Sweep.BareIdNeverSkips | src/hooks/useNotifications.tsx:196 | while the fired-set holds only keys, the bare-id test never skips a bill with a generated id, and each of its unrecorded windows alerts |
| Sweep.ClearLetsWindowsFireAgain | src/hooks/useNotifications.ts:91-93 | a recorded key keeps its window quiet; `ClearChecked`, the clear operation, empties the fired-set, and after it the same window alerts again |
| Scheduler.RequestPermission | src/hooks/useNotifications.tsx:42-55 | without the API: an error toast and no result; otherwise the current permission if already granted, and the user's answer if not |
| Scheduler.ScheduleNotification | src/hooks/useNotifications.tsx:58-150 | no timer exactly when the threshold instant has already passed; otherwise the timeout handed to `setTimeout` is the delay, non-negative, ending at the threshold instant |
| Scheduler.EffectiveTimeout | src/hooks/useNotifications.tsx:150 | the delay a browser timer honours is within 0 and 2^31 - 1 ms and equals the timeout exactly when the timeout is in that range; otherwise it differs from the timeout by a multiple of 2^32, and it is 0 only when the timeout reduced modulo 2^32 is 0 or lies above 2^31 - 1 ms |
| Scheduler.FiftyDaysWrapsToHours | src/hooks/useNotifications.tsx:150 | a 50-day timeout wraps to a positive delay of between six and seven hours, so the timer goes off early rather than at once |
| Scheduler.DistantBillAlertsAtOnce | src/hooks/useNotifications.tsx:150-185 | as written, a bill due 30 days ahead gets all three timers, each with a timeout above 2^31 - 1 ms that a browser fires at once; the recorded expired key then keeps the sweep's just-expired window quiet at the real due instant |
| Scheduler.Stretches | src/hooks/useNotifications.tsx:150 | the intended timer arms at least one stretch, each within 0 and 2^31 - 1 ms |
| Scheduler.StretchesEndOnTime | src/hooks/useNotifications.tsx:150 | a timer re-armed stretch by stretch goes off exactly when the whole delay has passed, for any delay; within 2^31 - 1 ms it is the single timer the program starts |
| Scheduler.ScheduleBills | src/hooks/useNotifications.tsx:163-187 | the loop over the bills starts a timer for exactly the listed bills and thresholds that are schedulable: unpaid, due after now, key not recorded, instant not passed, with the exact delay |
| Scheduler.ScheduleBillsDistinct | src/hooks/useNotifications.tsx:163-187 | for bills with distinct ids, the loop of a pass starts no timer twice |
| Scheduler.SchedulePass | src/hooks/useNotifications.tsx:154-188 | without permission, only the error toast; with it, a timer for exactly the listed unpaid bills due after now and thresholds whose key is not recorded and whose instant has not passed, with the exact delay, and for bills with distinct ids none twice |
| Scheduler.ExpiredAlwaysScheduled | src/hooks/useNotifications.tsx:171-184 | a bill due after now always gets its due-time timer unless its key is recorded |
| Scheduler.FireTimer | src/hooks/useNotifications.tsx:103-150 | with permission, the sound first and the notification with the alert title and tag last; always the toast with the threshold's severity and duration, after the sound and before the notification; the key is recorded whatever the permission |
| Scheduler.RescheduledThresholdAlertsTwice | src/hooks/useNotifications.tsx:103-175 | as written, two passes before a threshold start two timers whose timeouts end at the same instant, and both show the alert |
| Scheduler.FireTimerOnce | src/hooks/useNotifications.tsx:103-150 | the intended callback leaves the key recorded either way; it has an effect exactly when the key was not recorded before, and then it shows the threshold's toast, with the sound first when permission is granted |
| Scheduler.FireTimerOnceAlertsOnce | src/hooks/useNotifications.tsx:103-150 | with the intended callback, two timers for the same bill and threshold alert only once |
| Scheduler.FireAddsNoUuidLikeEntry | src/hooks/useNotifications.tsx:149 | a timer records only a key, never an id-like entry |
| Scheduler.ScheduleBillsSameKeys | src/hooks/useNotifications.tsx:163-187 | a pass depends on the fired-set only through the timer keys of the eligible bills |
| Scheduler.SweepDoesNotSuppressScheduling | src/hooks/useNotifications.tsx:154-273 | for bills with distinct ids, the keys the sweep records never stop a timer from being scheduled |
| Collection.AddBill | src/pages/Index.tsx:23-31 | the new bill goes first, unpaid, with the submitted fields, the given id and creation time; the older bills follow unchanged |
| Collection.AddBillKeepsIdsUnique | src/pages/Index.tsx:26-31 | a fresh id keeps the ids in the list distinct |
| Collection.AddedBillIsPending | src/pages/Index.tsx:27 | a new bill is never shown as paid |
| Collection.TogglePaid | src/pages/Index.tsx:35-40 | bills with the id get the new paid flag and nothing else of them changes; other bills and the order stay |
| Collection.PaidLabelFollowsSwitch | src/components/BillItem.tsx:36-40 | after the switch is flipped, the card's `PaidLabel` shows "Pago" exactly when the switch is on, and other cards keep their labels |
| Collection.ToggleAbsentIdIsNoOp | src/pages/Index.tsx:35-40 | an id that is not in the list changes nothing |
| Collection.ToggleIdempotent | src/pages/Index.tsx:35-40 | setting the same flag twice is setting it once |
| Collection.ToggleBackRestores | src/pages/Index.tsx:35-40 | flipping a bill and flipping it back restores the list |
| Collection.ToggleKeepsIds | src/pages/Index.tsx:35-40 | the set of ids is unchanged, so distinct ids stay distinct |
| Collection.PaidBillIsQuiet | src/pages/Index.tsx:35-40 | once marked paid, a bill shows as paid, gets no sweep alert and no new timer |

## Left out

- Real time: `setTimeout`, `setInterval`, their cancellation, and the timers
  that are still pending when the list changes. A pass returns its timers, and
  firing is an explicit step. The 32-bit limit on a timer's timeout is stated
  by `Scheduler.EffectiveTimeout`, but firing does not carry a clock.
- The millisecond clock: `now` is one parameter per pass. The program reads
  the clock again for each bill and each scheduled threshold.
- Date parsing and formatting (`parseISO`, `format` with the pt-BR locale),
  time zones, and the rendering of descriptions. The due instant is a field of
  the bill, and the form's chosen date is an already formatted string.
- The service worker registration, the platform Notification API, `Audio`,
  and React rendering. Effects are data values, such as `PlaySound` and
  `ShowNotification`.
- Currency formatting (`Intl.NumberFormat`) and the notification descriptions:
  they are display text only.
- `crypto.randomUUID` and `new Date().toISOString()` are parameters of
  `AddBill`.
- Local-storage persistence of the list, the loading delay of the index page,
  and the success toasts of adding and toggling.
- The setters of the name, date and time inputs: each stores its value
  unchanged.
- Bills.Bill: the amount is a real. A NaN amount, which `Form.Submit` can hand
  over, is not represented, so `Collection.AddBill` takes the intended
  handler's data and the list views assume numeric amounts. The sort by
  amount of a list holding NaN, whose order JavaScript leaves to the engine,
  is not modelled.
- Form.ParseAmount: gives the exact decimal value of the text. `parseFloat`'s
  rounding to a double is not modelled, and neither is its overflow to
  `Infinity` on very long digit strings.
- Text.LexLeTotal: the order is plain character order (`Text.LexLe`). It
  does not model `localeCompare`'s locale collation (accents, case).
- Text.Lower: lowers ASCII letters only. It does not model Unicode case
  mapping.
- ListView.SortBills: stability (equal bills keeping their input order) is
  not stated, only the sorted permutation.
- Scheduler.SchedulePass: takes permission as a boolean. The asynchronous
  resolution of the permission request is not modelled: a sweep may run
  before or after the pass.
- The badge component, the header and the push service worker are not part
  of this model: they only display or relay alerts.

## Findings

| source | as written | input that shows it | evidently intended | confidence | as-written member | corrected member |
|---|---|---|---|---|---|---|
| src/components/BillForm.tsx:38 | the amount check (empty text, or `parseFloat(amount) <= 0`) lets an amount through when `parseFloat` gives NaN, since `NaN <= 0` is false | the amount text "." (it passes the input filter `^[0-9]*\.?[0-9]*$`), with a name and a date filled in: a bill with amount NaN is submitted | reject any amount that does not parse to a positive number | not executed; medium, because a browser number input may sanitise "." before the handler sees it | Form.DotAmountIsSubmittedAsNaN | Form.SubmitIntended |
| src/hooks/useNotifications.tsx:103-150 | the timer callback alerts without checking the fired-set, and each change of the list starts a new pass without cancelling the timers of the previous one | a bill due in 30 hours, then any other bill added: two passes each start a warning timer for the first bill; both go off at the same instant, so the 24-hour alert, sound and toast appear twice | a threshold alerts once: the callback skips the alert when `${id}-${type}` is already recorded | not executed; high | Scheduler.RescheduledThresholdAlertsTwice | Scheduler.FireTimerOnceAlertsOnce |
| src/hooks/useNotifications.tsx:150 | the delay goes to `setTimeout` unchecked, and the HTML timer steps take it as a WebIDL `long`, a signed 32-bit integer, so a delay above 2,147,483,647 ms (about 24.8 days) wraps: up to about 49.7 days it becomes negative and the timer fires at once, and beyond that it becomes a shorter positive delay, so the timer fires early | a bill due 30 days ahead, with permission granted: every threshold's delay wraps to a negative value, so the warning, urgent and expired alerts all show during the pass, and the recorded expired key silences the sweep's just-expired alert at the real due instant | each timer goes off at its threshold instant, for example by re-arming the timer in stretches of at most 2^31 - 1 ms | not executed; high for browsers that follow the HTML standard's timer steps | Scheduler.DistantBillAlertsAtOnce | Scheduler.StretchesEndOnTime |

=== FILE: alerts.dfy ===
/**
 What a bill alert is made of: the threshold it is for, the key recorded in
 the fired-set, the title, the platform notification tag and the in-app toast.
 Both the timer path and the periodic sweep build alerts from these.
 */
module Alerts {
  import opened Wrappers
  import opened Text

  /** The three thresholds: 24 hours before, 2 hours before, and at due time. */
  datatype Threshold = Warning | Urgent | Expired

  /** The toast kinds: `toast.info`, `toast.warning` and `toast.error`. */
  datatype Severity = ToastInfo | ToastWarning | ToastError

  /** An in-app toast; a `None` duration leaves the toast library's default. */
  datatype Toast = Toast(severity: Severity, title: string, duration: Option<int>)

  /** The threshold names the timer path writes into keys and tags. */
  function TimerName(t: Threshold): string {
    match t
    case Warning => "warning"
    case Urgent => "urgent"
    case Expired => "expired"
  }

  /** The threshold names the periodic sweep writes into keys. */
  function SweepName(t: Threshold): string {
    match t
    case Warning => "24h"
    case Urgent => "2h"
    case Expired => "expired"
  }

  /** Every threshold name either path writes. */
  predicate IsKeyName(n: string) {
    n == "24h" || n == "2h" || n == "expired" || n == "warning" || n == "urgent"
  }

  /** The fired-set entry `${id}-${name}`. */
  function Key(id: string, name: string): string {
    id + ("-" + name)
  }

  /** The last two characters of a string. */
  function LastTwo(s: string): (char, char)
    requires |s| >= 2
  {
    (s[|s| - 2], s[|s| - 1])
  }

  /** The last two characters tell the threshold names apart. */
  lemma KeyNamesDifferAtEnd(n1: string, n2: string)
    requires IsKeyName(n1) && IsKeyName(n2)
    requires LastTwo(n1) == LastTwo(n2)
    ensures n1 == n2
  {
  }

  /** A key ends with the last two characters of its name. */
  lemma KeyEnd(id: string, n: string)
    requires |n| >= 2
    ensures LastTwo(Key(id, n)) == LastTwo(n)
  {
  }

  /**
   A key determines its id and its name: two keys built from names either
   path writes are equal only when both ids and both names are.
   */
  lemma KeyInjective(id1: string, n1: string, id2: string, n2: string)
    requires IsKeyName(n1) && IsKeyName(n2)
    ensures Key(id1, n1) == Key(id2, n2) <==> id1 == id2 && n1 == n2
  {
    if Key(id1, n1) == Key(id2, n2) {
      KeyEnd(id1, n1);
      KeyEnd(id2, n2);
      KeyNamesDifferAtEnd(n1, n2);
      CancelEnd(id1, id2, "-" + n1);
    }
  }

  /**
   The sweep's keys and the timers' keys meet only at the `expired`
   threshold of the same bill id: a sweep's `-24h` or `-2h` entry never
   stands for a timer's `-warning` or `-urgent` one, nor the other way round.
   */
  lemma SweepAndTimerKeysMeetOnlyAtExpired(id1: string, t1: Threshold, id2: string, t2: Threshold)
    ensures Key(id1, SweepName(t1)) == Key(id2, TimerName(t2)) <==>
      t1 == Expired && t2 == Expired && id1 == id2
  {
    KeyInjective(id1, SweepName(t1), id2, TimerName(t2));
  }

  /** A character `crypto.randomUUID` writes: a lower-case hex digit or a dash. */
  predicate IsUuidChar(c: char) {
    '0' <= c <= '9' || 'a' <= c <= 'f' || c == '-'
  }

  /** A string made only of characters a generated bill id can hold. */
  predicate UuidLike(s: string) {
    forall i | 0 <= i < |s| :: IsUuidChar(s[i])
  }

  /**
   No key looks like a generated id: every threshold name holds a letter
   past `f` (`h`, `x`, `w` or `u`), so a key is never mistaken for a bare id.
   */
  lemma KeyIsNotUuidLike(id: string, n: string)
    requires IsKeyName(n)
    ensures !UuidLike(Key(id, n))
  {
    var k := Key(id, n);
    var at := |id| + 1;
    if n == "24h" {
      assert k[at + 2] == 'h';
    } else if n == "2h" {
      assert k[at + 1] == 'h';
    } else if n == "expired" {
      assert k[at + 1] == 'x';
    } else if n == "warning" {
      assert k[at] == 'w';
    } else {
      assert k[at] == 'u';
    }
  }

  /** The text after the bill name in a title. */
  function TitleEnd(t: Threshold): string {
    match t
    case Warning => " vence em 24 horas"
    case Urgent => " vence em breve!"
    case Expired => " venceu!"
  }

  /** The title of an alert: "O boleto <name>" and a fixed ending per threshold. */
  function Title(name: string, t: Threshold): string {
    "O boleto " + name + TitleEnd(t)
  }

  /** A title determines the bill name and the threshold it was made for. */
  lemma TitleInjective(n1: string, t1: Threshold, n2: string, t2: Threshold)
    ensures Title(n1, t1) == Title(n2, t2) <==> n1 == n2 && t1 == t2
  {
    if Title(n1, t1) == Title(n2, t2) {
      var e1, e2 := TitleEnd(t1), TitleEnd(t2);
      if |e1| <= |e2| {
        EqualEnds("O boleto " + n1, e1, "O boleto " + n2, e2);
      } else {
        EqualEnds("O boleto " + n2, e2, "O boleto " + n1, e1);
      }
      assert t1 == t2;
      CancelEnd("O boleto " + n1, "O boleto " + n2, e1);
      CancelStart("O boleto ", n1, n2);
    }
  }

  /** The platform notification tag `bill-${id}-${type}`. */
  function Tag(id: string, t: Threshold): string {
    "bill-" + Key(id, TimerName(t))
  }

  /** A tag determines the bill id and the threshold. */
  lemma TagInjective(id1: string, t1: Threshold, id2: string, t2: Threshold)
    ensures Tag(id1, t1) == Tag(id2, t2) <==> id1 == id2 && t1 == t2
  {
    if Tag(id1, t1) == Tag(id2, t2) {
      CancelStart("bill-", Key(id1, TimerName(t1)), Key(id2, TimerName(t2)));
      KeyInjective(id1, TimerName(t1), id2, TimerName(t2));
    }
  }

  /**
   The toast shown for a threshold: info for 6 s at 24 hours, warning for
   8 s at 2 hours, error for 10 s at due time; the more urgent the threshold,
   the longer the toast stays.
   */
  function AlertToast(name: string, t: Threshold): (r: Toast)
    ensures r.title == Title(name, t)
    ensures r.duration.Some? && r.duration.value > 0
  {
    match t
    case Warning => Toast(ToastInfo, Title(name, t), Some(6000))
    case Urgent => Toast(ToastWarning, Title(name, t), Some(8000))
    case Expired => Toast(ToastError, Title(name, t), Some(10000))
  }
}

=== FILE: collection.dfy ===
/**
 The page that owns the bill list: adding a submitted bill and marking a
 bill paid or pending. The list is kept newest first; the id and the creation
 time of a new bill come from the platform and are parameters here.
 */
module Collection {
  import opened Bills
  import opened Alerts
  import Urgency
  import Sweep
  import Scheduler

  /**
   `handleAddBill`: the submitted data becomes an unpaid bill with the given
   id and creation time, placed in front of the existing bills, which stay
   as they were.
   */
  function AddBill(bills: seq<Bill>, data: BillFormData, id: string, createdAt: string, dueAt: int): (r: seq<Bill>)
    ensures |r| == |bills| + 1 && r[1..] == bills
    ensures r[0].id == id && r[0].createdAt == createdAt && !r[0].isPaid
    ensures BillFormData(r[0].name, r[0].amount, r[0].dueDate, r[0].dueTime) == data
    ensures r[0].dueAt == dueAt
  {
    [Bill(id, data.name, data.amount, data.dueDate, data.dueTime, false, createdAt, dueAt)] + bills
  }

  /** A new bill with an id not in the list keeps the ids unique. */
  lemma AddBillKeepsIdsUnique(bills: seq<Bill>, data: BillFormData, id: string, createdAt: string, dueAt: int)
    requires UniqueIds(bills) && id !in Ids(bills)
    ensures UniqueIds(AddBill(bills, data, id, createdAt, dueAt))
  {
  }

  /** A freshly added bill is never shown as paid. */
  lemma AddedBillIsPending(bills: seq<Bill>, data: BillFormData, id: string, createdAt: string, dueAt: int, now: int)
    ensures Urgency.Classify(AddBill(bills, data, id, createdAt, dueAt)[0], now) != Urgency.Paid
  {
  }

  /**
   `handleTogglePaid`: every bill carrying the id gets the new paid flag and
   nothing else of it changes; every other bill stays as it was, and the
   order of the list is kept.
   */
  function TogglePaid(bills: seq<Bill>, id: string, isPaid: bool): (r: seq<Bill>)
    ensures |r| == |bills|
    ensures forall i | 0 <= i < |r| :: r[i].id == bills[i].id
    ensures forall i | 0 <= i < |r| :: r[i].isPaid == if bills[i].id == id then isPaid else bills[i].isPaid
    ensures forall i | 0 <= i < |r| :: r[i].(isPaid := bills[i].isPaid) == bills[i]
  {
    seq(|bills|, i requires 0 <= i < |bills| => if bills[i].id == id then bills[i].(isPaid := isPaid) else bills[i])
  }

  /**
   The switch on a card calls the toggle with its new position; afterwards
   every card of that id shows "Pago" exactly when the switch is on, and no
   other card's label changes.
   */
  lemma PaidLabelFollowsSwitch(bills: seq<Bill>, id: string, checked: bool)
    ensures
      var r := TogglePaid(bills, id, checked);
      forall i | 0 <= i < |r| ::
        Urgency.PaidLabel(r[i]) == if bills[i].id == id then (if checked then "Pago" else "Pendente")
                                   else Urgency.PaidLabel(bills[i])
  {
  }

  /** Marking a bill that is not in the list changes nothing. */
  lemma ToggleAbsentIdIsNoOp(bills: seq<Bill>, id: string, isPaid: bool)
    requires id !in Ids(bills)
    ensures TogglePaid(bills, id, isPaid) == bills
  {
  }

  /** Marking twice with the same flag is marking once. */
  lemma ToggleIdempotent(bills: seq<Bill>, id: string, isPaid: bool)
    ensures TogglePaid(TogglePaid(bills, id, isPaid), id, isPaid) == TogglePaid(bills, id, isPaid)
  {
  }

  /** Marking a bill and then marking it back with its old flag restores the list. */
  lemma ToggleBackRestores(bills: seq<Bill>, id: string, isPaid: bool, was: bool)
    requires forall b | b in bills && b.id == id :: b.isPaid == was
    ensures TogglePaid(TogglePaid(bills, id, isPaid), id, was) == bills
  {
  }

  /** Marking keeps the ids, so a list with unique ids keeps them unique. */
  lemma ToggleKeepsIds(bills: seq<Bill>, id: string, isPaid: bool)
    ensures Ids(TogglePaid(bills, id, isPaid)) == Ids(bills)
    ensures UniqueIds(bills) ==> UniqueIds(TogglePaid(bills, id, isPaid))
  {
  }

  /**
   Once a bill is marked paid it drops out of the alerting: the card shows
   it as paid, the sweep shows no alert under its id, and the scheduling
   pass starts no timer for it. Its fired-set keys are not cleared.
   */
  lemma PaidBillIsQuiet(bills: seq<Bill>, id: string, now: int, fired: set<string>, withSound: bool, granted: bool)
    ensures
      var r := TogglePaid(bills, id, true);
      && (forall b | b in r && b.id == id :: Urgency.Classify(b, now) == Urgency.Paid)
      && (forall a, t | a in Sweep.CheckUpcomingBills(r, now, fired, withSound).alerts :: a.key != Key(id, SweepName(t)))
      && (forall tm | tm in Scheduler.SchedulePass(r, now, fired, granted).timers :: tm.bill.id != id)
  {
    var r := TogglePaid(bills, id, true);
    forall b | b in r && b.id == id ensures b.isPaid {
      var i :| 0 <= i < |r| && r[i] == b;
    }
    NoAlertUnderPaidId(r, id, now, Sweep.CheckUpcomingBills(r, now, fired, withSound).alerts);
  }

  /** Every alert explained by a bill of the list is for an unpaid bill, so none is under a paid id. */
  lemma NoAlertUnderPaidId(bills: seq<Bill>, id: string, now: int, alerts: seq<Sweep.SweepAlert>)
    requires forall b | b in bills && b.id == id :: b.isPaid
    requires forall a | a in alerts :: exists b, t :: b in bills && Sweep.Explains(b, t, now, a)
    ensures forall a, t | a in alerts :: a.key != Key(id, SweepName(t))
  {
    forall a, t | a in alerts ensures a.key != Key(id, SweepName(t)) {
      var b, t' :| b in bills && Sweep.Explains(b, t', now, a);
      KeyInjective(b.id, SweepName(t'), id, SweepName(t));
    }
  }
}

=== FILE: form.dfy ===
/**
 The new-bill form: the filter on what may be typed into the amount field,
 and the submit handler's ordered checks, normalisation and reset.
 */
module Form {
  import opened Wrappers
  import opened Bills
  import opened Text

  const DefaultDueTime: string := "12:00"

  const NameRequired: string := "Nome do boleto é obrigatório"
  const AmountNotPositive: string := "Valor deve ser maior que zero"
  const DueDateRequired: string := "Data de vencimento é obrigatória"

  /**
   The form's fields. `dueDate` is the picked calendar day already written
   as "yyyy-MM-dd" (the date picker and its formatting are not modelled);
   `error` is the message shown under the fields.
   */
  datatype FormState = FormState(
    name: string,
    amount: string,
    dueDate: Option<string>,
    dueTime: string,
    error: Option<string>
  )

  /** The fields when the form is first shown and after every submission. */
  const Initial: FormState := FormState("", "", None, DefaultDueTime, None)

  predicate IsDigit(c: char) {
    '0' <= c <= '9'
  }

  predicate AllDigits(s: string) {
    forall k | 0 <= k < |s| :: IsDigit(s[k])
  }

  /**
   The regular expression `^[0-9]*\.?[0-9]*$`: a run of digits, then
   optionally one '.', then a run of digits.
   */
  predicate AmountPattern(s: string) {
    exists i | 0 <= i <= |s| :: AmountSplit(s, i)
  }

  /** `s` splits at `i` into digits and then digits, or '.' and digits. */
  predicate AmountSplit(s: string, i: int)
    requires 0 <= i <= |s|
  {
    AllDigits(s[..i]) && (AllDigits(s[i..]) || (i < |s| && s[i] == '.' && AllDigits(s[i + 1..])))
  }

  /**
   A two-state recogniser for the amount text, reading one character at a
   time: digits are always accepted, a '.' only while none has been seen.
   */
  predicate Recognise(s: string, seenDot: bool) {
    if s == [] then true
    else if IsDigit(s[0]) then Recognise(s[1..], seenDot)
    else if s[0] == '.' && !seenDot then Recognise(s[1..], true)
    else false
  }

  /** After the '.', the recogniser accepts exactly the runs of digits. */
  lemma {:induction false} RecogniseAfterDot(s: string)
    ensures Recognise(s, true) <==> AllDigits(s)
  {
    if s != [] {
      RecogniseAfterDot(s[1..]);
      assert AllDigits(s) <==> IsDigit(s[0]) && AllDigits(s[1..]);
    }
  }

  /** The recogniser accepts exactly the text the regular expression matches. */
  lemma {:induction false} RecogniseIsAmountPattern(s: string)
    ensures Recognise(s, false) <==> AmountPattern(s)
  {
    if s == [] {
      assert AmountSplit(s, 0);
    } else if IsDigit(s[0]) {
      RecogniseIsAmountPattern(s[1..]);
      var t := s[1..];
      if AmountPattern(t) {
        var i :| 0 <= i <= |t| && AmountSplit(t, i);
        assert s[..i + 1] == [s[0]] + t[..i];
        assert s[i + 1..] == t[i..];
        assert AmountSplit(s, i + 1);
      }
      if AmountPattern(s) {
        var i :| 0 <= i <= |s| && AmountSplit(s, i);
        if i == 0 {
          assert s[0..] == s;
          assert AllDigits(t) by {
            forall k | 0 <= k < |t| ensures IsDigit(t[k]) {
              assert t[k] == s[k + 1];
            }
          }
          assert t[0..] == t;
          assert AmountSplit(t, 0);
        } else {
          assert t[..i - 1] == s[1..i];
          assert t[i - 1..] == s[i..];
          assert AmountSplit(t, i - 1);
        }
      }
    } else {
      RecogniseAfterDot(s[1..]);
      if AmountPattern(s) {
        var i :| 0 <= i <= |s| && AmountSplit(s, i);
        assert i == 0;
        assert s[0..] == s;
      }
      if s[0] == '.' && AllDigits(s[1..]) {
        assert s[..0] == [];
        assert AmountSplit(s, 0);
      }
    }
  }

  /**
   The amount field's change handler: the new text is kept when it matches
   `^[0-9]*\.?[0-9]*$` (the empty text always does); otherwise the previous
   amount stays. No other field changes.
   */
  function AmountChange(f: FormState, value: string): (g: FormState)
    ensures g.amount == (if AmountPattern(value) then value else f.amount)
    ensures value == "" ==> g.amount == ""
    ensures g == f.(amount := g.amount)
  {
    RecogniseIsAmountPattern(value);
    assert value == "" ==> AmountSplit(value, 0);
    if Recognise(value, false) || value == "" then f.(amount := value) else f
  }

  /** The initial form holds amount text the pattern accepts, and so does every
      form the change handler or the submit handler produces from one. */
  lemma AmountTextStaysInPattern(f: FormState, value: string)
    requires AmountPattern(f.amount)
    ensures AmountPattern(Initial.amount)
    ensures AmountPattern(AmountChange(f, value).amount)
    ensures AmountPattern(Submit(f).form.amount)
    ensures AmountPattern(SubmitIntended(f).form.amount)
  {
    assert AmountSplit("", 0);
  }

  function DigitValue(c: char): nat
    requires IsDigit(c)
  {
    (c as int) - ('0' as int)
  }

  /** The number a run of decimal digits denotes. */
  function DigitsValue(ds: string): nat
    requires AllDigits(ds)
  {
    if ds == [] then 0
    else DigitsValue(ds[..|ds| - 1]) * 10 + DigitValue(ds[|ds| - 1])
  }

  predicate HasNonZeroDigit(s: string) {
    exists k | 0 <= k < |s| :: '1' <= s[k] <= '9'
  }

  /** A run of digits denotes a positive number exactly when one of them is not '0'. */
  lemma {:induction false} DigitsValuePositive(ds: string)
    requires AllDigits(ds)
    ensures DigitsValue(ds) > 0 <==> HasNonZeroDigit(ds)
  {
    if ds != [] {
      var init := ds[..|ds| - 1];
      DigitsValuePositive(init);
      assert HasNonZeroDigit(ds) <==> HasNonZeroDigit(init) || '1' <= ds[|ds| - 1] <= '9' by {
        if HasNonZeroDigit(ds) {
          var k :| 0 <= k < |ds| && '1' <= ds[k] <= '9';
          if k < |ds| - 1 {
            assert init[k] == ds[k];
          }
        }
        if HasNonZeroDigit(init) {
          var k :| 0 <= k < |init| && '1' <= init[k] <= '9';
          assert ds[k] == init[k];
        }
      }
    }
  }

  function Pow10(n: nat): (p: nat)
    ensures p > 0
  {
    if n == 0 then 1 else 10 * Pow10(n - 1)
  }

  /** The position of the first '.', or |s| when there is none. */
  function DotIndex(s: string): (i: nat)
    ensures i <= |s|
    ensures forall k | 0 <= k < i :: s[k] != '.'
    ensures i < |s| ==> s[i] == '.'
  {
    if s == [] then 0
    else if s[0] == '.' then 0
    else 1 + DotIndex(s[1..])
  }

  /**
   `parseFloat` on text the amount field can hold: `None` stands for NaN,
   which is what the text without any digit ("" and ".") parses to; other
   text parses to the exact value of its digits around the '.'. Text outside
   the pattern never reaches the submit handler and also gives `None` here.
   */
  function ParseAmount(s: string): (v: Option<real>)
    ensures v.Some? ==> AmountPattern(s) && v.value >= 0.0
  {
    RecogniseIsAmountPattern(s);
    if !Recognise(s, false) then None
    else
      var i := DotIndex(s);
      var whole := s[..i];
      var frac := if i < |s| then s[i + 1..] else "";
      PatternParts(s);
      if whole == [] && frac == [] then None
      else Some(DecimalValue(whole, frac))
  }

  /** The value of the decimal `whole.frac`. */
  function DecimalValue(whole: string, frac: string): (v: real)
    requires AllDigits(whole) && AllDigits(frac)
    ensures v > 0.0 <==> DigitsValue(whole) > 0 || DigitsValue(frac) > 0
  {
    DigitsValue(whole) as real + (DigitsValue(frac) as real) / (Pow10(|frac|) as real)
  }

  /** Both sides of the first '.' of pattern text are runs of digits. */
  lemma {:induction false} PatternParts(s: string)
    requires Recognise(s, false)
    ensures AllDigits(s[..DotIndex(s)])
    ensures DotIndex(s) < |s| ==> AllDigits(s[DotIndex(s) + 1..])
  {
    if s != [] {
      if IsDigit(s[0]) {
        var t := s[1..];
        PatternParts(t);
        var d := DotIndex(t);
        assert s[..d + 1] == [s[0]] + t[..d];
        assert d < |t| ==> s[d + 2..] == t[d + 1..];
      } else {
        RecogniseAfterDot(s[1..]);
      }
    }
  }

  predicate HasDigit(s: string) {
    exists k | 0 <= k < |s| :: IsDigit(s[k])
  }

  lemma DigitsConcat(a: string, b: string)
    ensures HasDigit(a + b) <==> HasDigit(a) || HasDigit(b)
    ensures HasNonZeroDigit(a + b) <==> HasNonZeroDigit(a) || HasNonZeroDigit(b)
  {
    var ab := a + b;
    if HasDigit(ab) {
      var k :| 0 <= k < |ab| && IsDigit(ab[k]);
      if k >= |a| { assert b[k - |a|] == ab[k]; }
    }
    if HasNonZeroDigit(ab) {
      var k :| 0 <= k < |ab| && '1' <= ab[k] <= '9';
      if k >= |a| { assert b[k - |a|] == ab[k]; }
    }
    if HasDigit(a) {
      var k :| 0 <= k < |a| && IsDigit(a[k]);
      assert ab[k] == a[k];
    }
    if HasNonZeroDigit(a) {
      var k :| 0 <= k < |a| && '1' <= a[k] <= '9';
      assert ab[k] == a[k];
    }
    if HasDigit(b) {
      var k :| 0 <= k < |b| && IsDigit(b[k]);
      assert ab[k + |a|] == b[k];
    }
    if HasNonZeroDigit(b) {
      var k :| 0 <= k < |b| && '1' <= b[k] <= '9';
      assert ab[k + |a|] == b[k];
    }
  }

  /** Pattern text parses to a number exactly when it holds a digit, and to a
      positive number exactly when it holds a digit other than '0'. */
  lemma ParseAmountPositive(s: string)
    requires AmountPattern(s)
    ensures ParseAmount(s).Some? <==> HasDigit(s)
    ensures ParseAmount(s).Some? && ParseAmount(s).value > 0.0 <==> HasNonZeroDigit(s)
  {
    var i := DotIndex(s);
    var whole := s[..i];
    var frac := if i < |s| then s[i + 1..] else "";
    ParseAmountByParts(s, whole, frac);
    DecimalParts(whole, frac);
    DotSplit(s);
    PartsDigits(s, whole, frac);
  }

  /** The decimal `whole.frac` is written with a digit exactly when a side is
      non-empty, and is positive exactly when a side holds a non-zero digit. */
  lemma DecimalParts(whole: string, frac: string)
    requires AllDigits(whole) && AllDigits(frac)
    ensures whole == [] && frac == [] <==> !HasDigit(whole) && !HasDigit(frac)
    ensures DecimalValue(whole, frac) > 0.0 <==> HasNonZeroDigit(whole) || HasNonZeroDigit(frac)
  {
    DigitsValuePositive(whole);
    DigitsValuePositive(frac);
    DigitRunHasDigit(whole);
    DigitRunHasDigit(frac);
  }

  /** `ParseAmount` on pattern text, in terms of the two sides of its first '.'. */
  lemma ParseAmountByParts(s: string, whole: string, frac: string)
    requires AmountPattern(s)
    requires whole == s[..DotIndex(s)]
    requires frac == if DotIndex(s) < |s| then s[DotIndex(s) + 1..] else ""
    ensures AllDigits(whole) && AllDigits(frac)
    ensures ParseAmount(s) == if whole == [] && frac == [] then None else Some(DecimalValue(whole, frac))
  {
    RecogniseIsAmountPattern(s);
    PatternParts(s);
  }

  /** Text is the part before its first '.', then the '.' and the rest, if it has one. */
  lemma DotSplit(s: string)
    ensures DotIndex(s) < |s| ==> s == s[..DotIndex(s)] + "." + s[DotIndex(s) + 1..]
    ensures DotIndex(s) == |s| ==> s == s[..DotIndex(s)]
  {
    var i := DotIndex(s);
    if i < |s| {
      var t := s[..i] + "." + s[i + 1..];
      forall k | 0 <= k < |s| ensures t[k] == s[k] {
        if k < i {
          assert t[k] == s[..i][k];
        } else if k > i {
          assert t[k] == s[i + 1..][k - i - 1];
        }
      }
      assert t == s;
    }
  }

  /** A run of digits holds a digit exactly when it is not empty. */
  lemma DigitRunHasDigit(ds: string)
    requires AllDigits(ds)
    ensures HasDigit(ds) <==> ds != []
  {
    if ds != [] {
      assert IsDigit(ds[0]);
    }
  }

  /** Text split at a '.' holds a (non-zero) digit exactly when one of its parts does. */
  lemma PartsDigits(s: string, whole: string, frac: string)
    requires s == whole + "." + frac || (s == whole && frac == "")
    ensures HasDigit(s) <==> HasDigit(whole) || HasDigit(frac)
    ensures HasNonZeroDigit(s) <==> HasNonZeroDigit(whole) || HasNonZeroDigit(frac)
  {
    assert !HasNonZeroDigit(".") && !HasDigit(".");
    assert !HasNonZeroDigit("") && !HasDigit("");
    if s == whole + "." + frac {
      DigitsConcat(whole, ".");
      DigitsConcat(whole + ".", frac);
    }
  }

  /**
   The amount check as the submit handler writes it: reject when the text is
   empty or `parseFloat` of it is `<= 0`. NaN compares false with 0, so text
   without digits other than the empty text passes.
   */
  predicate AmountRejectedAsWritten(amount: string) {
    amount == "" || (ParseAmount(amount).Some? && ParseAmount(amount).value <= 0.0)
  }

  /** The text "." can be typed, and the check as written lets it through
      although it parses to NaN. */
  lemma DotAmountPassesAsWritten()
    ensures AmountPattern(".")
    ensures !AmountRejectedAsWritten(".")
    ensures ParseAmount(".") == None
  {
    assert AmountSplit(".", 0);
    ParseAmountPositive(".");
  }

  /** The intended amount check: reject unless the text parses to a number > 0. */
  predicate AmountRejected(amount: string) {
    !(ParseAmount(amount).Some? && ParseAmount(amount).value > 0.0)
  }

  /**
   The intended check accepts pattern text exactly when it holds a digit
   other than '0', and agrees with the check as written on every text except
   the non-empty text that parses to NaN.
   */
  lemma AmountRejectedMeaning(amount: string)
    requires AmountPattern(amount)
    ensures !AmountRejected(amount) <==> HasNonZeroDigit(amount)
    ensures !AmountRejected(amount) ==> amount != "" && ParseAmount(amount).value > 0.0
    ensures AmountRejected(amount) != AmountRejectedAsWritten(amount) <==>
      amount != "" && ParseAmount(amount).None?
  {
    ParseAmountPositive(amount);
  }

  /**
   What the submit handler hands to `onSubmit`. The amount is `parseFloat`'s
   result, with `None` standing for NaN.
   */
  datatype Handover = Handover(name: string, amount: Option<real>, dueDate: string, dueTime: string)

  /** The form after a submit, and what it handed over, if anything. */
  datatype SubmitResult<D> = SubmitResult(form: FormState, submitted: Option<D>)

  /**
   The submit handler as written. The checks run in order (blank name, then
   amount, then missing date) and only the first failure is reported. On
   failure nothing is handed over and only the error message changes. When
   all three checks pass, the form data is handed over once and the form is
   reset. The data has the name trimmed (non-empty), the amount as
   `parseFloat` gives it, and the time defaulted to 12:00. The amount is
   positive when it is a number at all; it is NaN when the text has no digit
   (see `DotAmountIsSubmittedAsNaN`).
   */
  function Submit(f: FormState): (r: SubmitResult<Handover>)
    ensures r.submitted.Some? <==> !AllWhitespace(f.name) && !AmountRejectedAsWritten(f.amount) && f.dueDate.Some?
    ensures r.submitted.None? <==> r.form.error.Some?
    ensures r.form.error == Some(NameRequired) <==> AllWhitespace(f.name)
    ensures r.form.error == Some(AmountNotPositive) <==> !AllWhitespace(f.name) && AmountRejectedAsWritten(f.amount)
    ensures r.form.error == Some(DueDateRequired) <==>
      !AllWhitespace(f.name) && !AmountRejectedAsWritten(f.amount) && f.dueDate.None?
    ensures r.form.error.Some? ==> r.form == f.(error := r.form.error)
    ensures r.submitted.Some? ==>
      var d := r.submitted.value;
      && r.form == Initial
      && d.name != "" && d.name == Trim(f.name)
      && !IsJsWhitespace(d.name[0]) && !IsJsWhitespace(d.name[|d.name| - 1])
      && d.amount == ParseAmount(f.amount)
      && (d.amount.Some? ==> d.amount.value > 0.0)
      && Some(d.dueDate) == f.dueDate
      && d.dueTime == (if f.dueTime == "" then DefaultDueTime else f.dueTime)
  {
    var name := Trim(f.name);
    if name == "" then
      SubmitResult(f.(error := Some(NameRequired)), None)
    else if AmountRejectedAsWritten(f.amount) then
      SubmitResult(f.(error := Some(AmountNotPositive)), None)
    else if f.dueDate.None? then
      SubmitResult(f.(error := Some(DueDateRequired)), None)
    else
      var dueTime := if f.dueTime == "" then DefaultDueTime else f.dueTime;
      SubmitResult(Initial, Some(Handover(name, ParseAmount(f.amount), f.dueDate.value, dueTime)))
  }

  /**
   The submit handler with the intended amount check `AmountRejected`. It
   behaves like `Submit` except that an amount is handed over only when it
   is a positive number, so the bill data always carries one.
   */
  function SubmitIntended(f: FormState): (r: SubmitResult<BillFormData>)
    ensures r.submitted.Some? <==> !AllWhitespace(f.name) && !AmountRejected(f.amount) && f.dueDate.Some?
    ensures r.submitted.None? <==> r.form.error.Some?
    ensures r.form.error == Some(NameRequired) <==> AllWhitespace(f.name)
    ensures r.form.error == Some(AmountNotPositive) <==> !AllWhitespace(f.name) && AmountRejected(f.amount)
    ensures r.form.error == Some(DueDateRequired) <==>
      !AllWhitespace(f.name) && !AmountRejected(f.amount) && f.dueDate.None?
    ensures r.form.error.Some? ==> r.form == f.(error := r.form.error)
    ensures r.submitted.Some? ==>
      var d := r.submitted.value;
      && r.form == Initial
      && d.name != "" && d.name == Trim(f.name)
      && !IsJsWhitespace(d.name[0]) && !IsJsWhitespace(d.name[|d.name| - 1])
      && d.amount > 0.0 && Some(d.amount) == ParseAmount(f.amount)
      && Some(d.dueDate) == f.dueDate
      && d.dueTime == (if f.dueTime == "" then DefaultDueTime else f.dueTime)
  {
    var name := Trim(f.name);
    if name == "" then
      SubmitResult(f.(error := Some(NameRequired)), None)
    else if AmountRejected(f.amount) then
      SubmitResult(f.(error := Some(AmountNotPositive)), None)
    else if f.dueDate.None? then
      SubmitResult(f.(error := Some(DueDateRequired)), None)
    else
      var dueTime := if f.dueTime == "" then DefaultDueTime else f.dueTime;
      SubmitResult(Initial, Some(BillFormData(name, ParseAmount(f.amount).value, f.dueDate.value, dueTime)))
  }

  /**
   As written, a name, the amount text "." and a date are handed over with
   a NaN amount; the intended handler rejects the same form on its amount.
   */
  lemma DotAmountIsSubmittedAsNaN(date: string)
    ensures Submit(FormState("Luz", ".", Some(date), "10:00", None)).submitted == Some(Handover("Luz", None, date, "10:00"))
    ensures SubmitIntended(FormState("Luz", ".", Some(date), "10:00", None)).form.error == Some(AmountNotPositive)
  {
    DotAmountPassesAsWritten();
    TrimKeepsLuz();
    var f := FormState("Luz", ".", Some(date), "10:00", None);
    assert !IsJsWhitespace(f.name[0]);
    var r := Submit(f);
    assert r.submitted.Some?;
    var d := r.submitted.value;
    assert d.name == "Luz" && d.amount == None && d.dueDate == date && d.dueTime == "10:00";
  }

  /** The name "Luz" has no whitespace to cut. */
  lemma TrimKeepsLuz()
    ensures Trim("Luz") == "Luz"
  {
    var name := "Luz";
    assert !IsJsWhitespace(name[0]) && !IsJsWhitespace(name[|name| - 1]);
    assert LeadingSpace(name) == 0;
    assert TrailingStart(name) == |name|;
    assert name[0..|name|] == name;
  }

  /**
   The two handlers differ only on amount text that parses to NaN: on any
   other form they report the same error, leave the same fields, and hand
   over the same data.
   */
  lemma SubmitIntendedAgrees(f: FormState)
    ensures SubmitIntended(f).form.error.Some? != Submit(f).form.error.Some? ==> f.amount != "" && ParseAmount(f.amount).None?
    ensures !(f.amount != "" && ParseAmount(f.amount).None?) ==>
      && Submit(f).form == SubmitIntended(f).form
      && (SubmitIntended(f).submitted.Some? ==>
            var d := SubmitIntended(f).submitted.value;
            Submit(f).submitted == Some(Handover(d.name, Some(d.amount), d.dueDate, d.dueTime)))
  {
  }

  /**
   Submitting twice in a row hands over at most one bill: after a success
   the reset form fails on its blank name, and after a failure the same
   failure repeats.
   */
  lemma SubmitTwiceSubmitsOnce(f: FormState)
    ensures Submit(Submit(f).form).submitted == None
    ensures Submit(f).submitted.None? ==> Submit(Submit(f).form) == Submit(f)
  {
  }

  /** The same holds for the intended handler. */
  lemma SubmitIntendedTwiceSubmitsOnce(f: FormState)
    ensures SubmitIntended(SubmitIntended(f).form).submitted == None
    ensures SubmitIntended(f).submitted.None? ==> SubmitIntended(SubmitIntended(f).form) == SubmitIntended(f)
  {
  }
}

=== FILE: listview.dfy ===
/**
 The bill list: a search-and-paid filter, a sort by date key, name or
 amount, the split into pending and paid groups, and the button that cycles
 the sort mode.
 */
module ListView {
  import opened Bills
  import opened Text
  import opened Seqs

  datatype SortMode = ByDate | ByName | ByAmount

  /** A bill passes the filter when its lower-cased name includes the lower-cased
      search term, and, unless paid bills are shown, it is unpaid. */
  predicate Matches(b: Bill, term: string, showPaid: bool) {
    Contains(Lower(b.name), Lower(term)) && (showPaid || !b.isPaid)
  }

  /**
   The filter step of the list: keeps exactly the matching bills, each as
   often as it occurs in the input, in their input order.
   */
  function FilterBills(bills: seq<Bill>, term: string, showPaid: bool): (r: seq<Bill>)
    ensures forall b :: multiset(r)[b] == if Matches(b, term, showPaid) then multiset(bills)[b] else 0
    ensures forall b :: b in r <==> b in bills && Matches(b, term, showPaid)
    ensures IsSubsequence(r, bills)
  {
    if bills == [] then []
    else
      var rest := FilterBills(bills[1..], term, showPaid);
      assert bills == [bills[0]] + bills[1..];
      if Matches(bills[0], term, showPaid) then [bills[0]] + rest else rest
  }

  /** With an empty search term and paid bills shown, the filter keeps every bill. */
  lemma {:induction false} FilterKeepsAll(bills: seq<Bill>)
    ensures FilterBills(bills, "", true) == bills
  {
    if bills != [] {
      ContainsEmpty(Lower(bills[0].name));
      assert Lower("") == "";
      FilterKeepsAll(bills[1..]);
    }
  }

  /** The key a bill sorts by in date mode: `${dueDate}T${dueTime}`. */
  function DateKey(b: Bill): string {
    b.dueDate + "T" + b.dueTime
  }

  /** `a` may come before `b` in the given sort mode. */
  predicate Le(mode: SortMode, a: Bill, b: Bill) {
    match mode
    case ByDate => LexLe(DateKey(a), DateKey(b))
    case ByName => LexLe(a.name, b.name)
    case ByAmount => a.amount <= b.amount
  }

  lemma LeTotal(mode: SortMode, a: Bill, b: Bill)
    ensures Le(mode, a, b) || Le(mode, b, a)
  {
    match mode
    case ByDate => LexLeTotal(DateKey(a), DateKey(b));
    case ByName => LexLeTotal(a.name, b.name);
    case ByAmount =>
  }

  /** Consecutive bills are in order. */
  predicate SortedBy(mode: SortMode, s: seq<Bill>) {
    forall i | 0 <= i < |s| - 1 :: Le(mode, s[i], s[i + 1])
  }

  /** Inserts `x` into a sorted list before the first bill it may precede. */
  function Insert(mode: SortMode, x: Bill, s: seq<Bill>): (r: seq<Bill>)
    requires SortedBy(mode, s)
    ensures SortedBy(mode, r)
    ensures multiset(r) == multiset(s) + multiset{x}
    ensures r[0] == x || (|s| > 0 && r[0] == s[0])
  {
    if s == [] then [x]
    else if Le(mode, x, s[0]) then [x] + s
    else
      LeTotal(mode, x, s[0]);
      assert s == [s[0]] + s[1..];
      [s[0]] + Insert(mode, x, s[1..])
  }

  /**
   The sort step of the list, a stable sort as `Array.prototype.sort` is:
   the result is a permutation of the input whose consecutive bills are in
   order (date keys, names or amounts non-decreasing).
   */
  function SortBills(mode: SortMode, s: seq<Bill>): (r: seq<Bill>)
    ensures SortedBy(mode, r)
    ensures multiset(r) == multiset(s)
    ensures |r| == |s|
  {
    if s == [] then []
    else
      assert s == [s[0]] + s[1..];
      Insert(mode, s[0], SortBills(mode, s[1..]))
  }

  /**
   The list the component shows: the filtered bills, sorted. Every bill shown
   matches the search, no paid bill is shown when paid bills are hidden,
   every matching bill is shown, the result is a sub-multiset of the input,
   and it is a permutation of the input when nothing is filtered out.
   */
  function FilteredBills(bills: seq<Bill>, term: string, showPaid: bool, mode: SortMode): (r: seq<Bill>)
    ensures forall b | b in r :: Contains(Lower(b.name), Lower(term))
    ensures !showPaid ==> forall b | b in r :: !b.isPaid
    ensures forall b | b in bills && Matches(b, term, showPaid) :: b in r
    ensures multiset(r) <= multiset(bills)
    ensures multiset(r) == multiset(FilterBills(bills, term, showPaid))
    ensures term == "" && showPaid ==> multiset(r) == multiset(bills)
    ensures SortedBy(mode, r)
  {
    var kept := FilterBills(bills, term, showPaid);
    var r := SortBills(mode, kept);
    SortedKeepsMembers(mode, kept);
    SubsequenceMultiset(kept, bills);
    FilterKeepsAll(bills);
    r
  }

  /** Sorting neither adds nor drops a bill. */
  lemma SortedKeepsMembers(mode: SortMode, s: seq<Bill>)
    ensures forall b :: b in SortBills(mode, s) <==> b in s
  {
    var r := SortBills(mode, s);
    forall b ensures b in r <==> b in s {
      assert b in r <==> multiset(r)[b] > 0;
      assert b in s <==> multiset(s)[b] > 0;
    }
  }

  /** The pending (`paid == false`) or paid (`paid == true`) group of a list,
      keeping the list's order. */
  function Group(s: seq<Bill>, paid: bool): (r: seq<Bill>)
    ensures forall b :: b in r <==> b in s && b.isPaid == paid
    ensures IsSubsequence(r, s)
  {
    if s == [] then []
    else
      var rest := Group(s[1..], paid);
      if s[0].isPaid == paid then [s[0]] + rest else rest
  }

  /** The pending and paid groups split the list: together they hold each bill
      as often as the list does, so their lengths add up to its length. */
  lemma {:induction false} GroupsPartition(s: seq<Bill>)
    ensures multiset(Group(s, false)) + multiset(Group(s, true)) == multiset(s)
    ensures |Group(s, false)| + |Group(s, true)| == |s|
  {
    if s != [] {
      GroupsPartition(s[1..]);
      assert s == [s[0]] + s[1..];
    }
  }

  /** The sort button's cycle of modes, in order. */
  const SortOptions: seq<SortMode> := [ByDate, ByName, ByAmount]

  /** `indexOf`: the first position of `m` in `options`, or -1. */
  function IndexOf(options: seq<SortMode>, m: SortMode): (i: int)
    ensures -1 <= i < |options|
    ensures i >= 0 ==> options[i] == m && m !in options[..i]
    ensures i == -1 ==> m !in options
  {
    if options == [] then -1
    else if options[0] == m then 0
    else
      var j := IndexOf(options[1..], m);
      if j == -1 then -1 else j + 1
  }

  /** The mode after a click on the sort button. */
  function NextSortMode(m: SortMode): SortMode {
    var i := IndexOf(SortOptions, m);
    SortOptions[(i + 1) % |SortOptions|]
  }

  /** The sort button cycles date, name, amount and back to date. */
  lemma SortModeCycle(m: SortMode)
    ensures NextSortMode(ByDate) == ByName
    ensures NextSortMode(ByName) == ByAmount
    ensures NextSortMode(ByAmount) == ByDate
    ensures NextSortMode(m) != m
    ensures NextSortMode(NextSortMode(NextSortMode(m))) == m
  {
  }
}

=== FILE: scheduler.dfy ===
/**
 The timer path of the notification hook: whenever the bill list changes,
 one timer per pending threshold of every unpaid, not yet due bill, each
 with a timeout that ends at the threshold instant; when a timer goes off,
 the alert is shown and its key recorded in the fired-set. Real time is not
 modelled: a scheduling pass returns the timers it would start, and firing a
 timer is an explicit step. When that step comes is stated separately: a
 browser honours only timeouts that fit in 32 bits (`EffectiveTimeout`).
 */
module Scheduler {
  import opened Wrappers
  import opened Bills
  import opened Alerts
  import Sweep
  import opened Seqs

  const PermissionMissing: string := "Para receber notificações, você precisa permitir o acesso"

  /** `Notification.permission`. */
  datatype Permission = Granted | Denied | Default

  const Unsupported: string := "Este navegador não suporta notificações"

  /** What the permission request resolves to, with the toasts it shows. */
  datatype PermissionAnswer = PermissionAnswer(result: Option<Permission>, toasts: seq<Toast>)

  /**
   `requestNotificationPermission`. Without the Notification API it shows an
   error toast and resolves to nothing. Otherwise, when permission is already
   granted it resolves to that without asking, and when it is not, it asks
   the user (whose answer is a parameter) and resolves to the answer. The
   scheduling pass goes ahead only on `Some(Granted)`.
   */
  function RequestPermission(supported: bool, current: Permission, answer: Permission): (r: PermissionAnswer)
    ensures !supported ==> r == PermissionAnswer(None, [Toast(ToastError, Unsupported, None)])
    ensures supported ==> r.toasts == [] && r.result.Some?
    ensures r.result == Some(Granted) <==> supported && (current == Granted || answer == Granted)
    ensures supported && current != Granted ==> r.result == Some(answer)
  {
    if !supported then PermissionAnswer(None, [Toast(ToastError, Unsupported, None)])
    else if current != Granted then PermissionAnswer(Some(answer), [])
    else PermissionAnswer(Some(current), [])
  }

  /** How long before the due instant a threshold's alert goes off. */
  function Offset(t: Threshold): int {
    match t
    case Warning => DayMs
    case Urgent => 2 * HourMs
    case Expired => 0
  }

  /** A started timer: the bill as it was when scheduled, the threshold, and
      the timeout in milliseconds handed to the timer. */
  datatype Timer = Timer(bill: Bill, threshold: Threshold, timeout: int)

  /**
   `scheduleNotification`: the delay is the due instant minus `now` minus the
   threshold's offset; nothing is started when that is negative, and
   otherwise the timeout handed to the timer is the delay itself, which ends
   at the threshold instant. A delay of 0 is still started.
   */
  function ScheduleNotification(b: Bill, t: Threshold, now: int): (r: Option<Timer>)
    ensures r.None? <==> b.dueAt - Offset(t) < now
    ensures r.Some? ==> r.value.bill == b && r.value.threshold == t
    ensures r.Some? ==> r.value.timeout >= 0 && now + r.value.timeout == b.dueAt - Offset(t)
  {
    var delay := b.dueAt - now - Offset(t);
    if delay < 0 then None
    else
      var timeout := if delay > 0 then delay else 0;
      Some(Timer(b, t, timeout))
  }

  /** The largest timeout a browser timer keeps: 2^31 - 1 ms, about 24.8 days. */
  const MaxTimeout: int := 0x7FFF_FFFF

  /**
   The delay after which a browser timer started with `timeout` goes off.
   The HTML timer steps take the timeout as a WebIDL `long`: it is reduced
   modulo 2^32 into the signed 32-bit range, and a negative result counts
   as 0. Only a timeout within 0 and `MaxTimeout` is kept as it is.
   */
  function EffectiveTimeout(timeout: int): (d: int)
    ensures 0 <= d <= MaxTimeout
    ensures d == timeout <==> 0 <= timeout <= MaxTimeout
    ensures d == 0 || (timeout - d) % 0x1_0000_0000 == 0
    ensures d == 0 ==> timeout % 0x1_0000_0000 == 0 || timeout % 0x1_0000_0000 > MaxTimeout
  {
    var w := timeout % 0x1_0000_0000;
    var s := if w > MaxTimeout then w - 0x1_0000_0000 else w;
    if s < 0 then 0 else s
  }

  /** A bill the pass looks at: unpaid and due strictly after `now`. */
  predicate Eligible(b: Bill, now: int) {
    !b.isPaid && b.dueAt > now
  }

  /**
   The timers a pass starts, described without the loop: one per eligible
   bill and threshold whose `${id}-${type}` key is not in the fired-set and
   whose threshold instant has not passed, with the exact delay as timeout.
   */
  predicate Schedulable(tm: Timer, now: int, fired: set<string>) {
    && Eligible(tm.bill, now)
    && Key(tm.bill.id, TimerName(tm.threshold)) !in fired
    && tm.timeout == tm.bill.dueAt - now - Offset(tm.threshold)
    && tm.timeout >= 0
  }

  function OptionToSeq(o: Option<Timer>): seq<Timer> {
    if o.Some? then [o.value] else []
  }

  /** The check before `scheduleNotification` for one threshold. */
  function ScheduleThreshold(b: Bill, t: Threshold, now: int, fired: set<string>): (r: seq<Timer>)
    requires Eligible(b, now)
    ensures forall tm :: tm in r <==> tm.bill == b && tm.threshold == t && Schedulable(tm, now, fired)
    ensures |r| <= 1
  {
    if Key(b.id, TimerName(t)) !in fired then OptionToSeq(ScheduleNotification(b, t, now)) else []
  }

  /** One bill of the pass: warning, urgent and expired, in that order. */
  function ScheduleBill(b: Bill, now: int, fired: set<string>): (r: seq<Timer>)
    ensures forall tm :: tm in r <==> tm.bill == b && Schedulable(tm, now, fired)
    ensures Distinct(r)
  {
    if !Eligible(b, now) then []
    else
      var w := ScheduleThreshold(b, Warning, now, fired);
      var u := ScheduleThreshold(b, Urgent, now, fired);
      var e := ScheduleThreshold(b, Expired, now, fired);
      ScheduleBillComplete(b, now, fired);
      DistinctConcat(w, u);
      DistinctConcat(w + u, e);
      w + u + e
  }

  /** Every schedulable timer of an eligible bill is one of its three thresholds' timers. */
  lemma ScheduleBillComplete(b: Bill, now: int, fired: set<string>)
    requires Eligible(b, now)
    ensures forall tm: Timer | tm.bill == b && Schedulable(tm, now, fired) ::
      tm in ScheduleThreshold(b, Warning, now, fired) + ScheduleThreshold(b, Urgent, now, fired)
        + ScheduleThreshold(b, Expired, now, fired)
  {
  }

  /** The loop of the pass over the bills, in list order. */
  function ScheduleBills(bills: seq<Bill>, now: int, fired: set<string>): (r: seq<Timer>)
    ensures forall tm :: tm in r <==> tm.bill in bills && Schedulable(tm, now, fired)
  {
    if bills == [] then []
    else
      assert forall b :: b in bills <==> b == bills[0] || b in bills[1..];
      ScheduleBill(bills[0], now, fired) + ScheduleBills(bills[1..], now, fired)
  }

  /** For bills with distinct ids, the loop starts no timer twice. */
  lemma {:induction false} ScheduleBillsDistinct(bills: seq<Bill>, now: int, fired: set<string>)
    ensures UniqueIds(bills) ==> Distinct(ScheduleBills(bills, now, fired))
  {
    if bills != [] && UniqueIds(bills) {
      var b := bills[0];
      var rest := bills[1..];
      assert UniqueIds(rest) by {
        forall i, j | 0 <= i < j < |rest| ensures rest[i].id != rest[j].id {
          assert rest[i] == bills[i + 1] && rest[j] == bills[j + 1];
        }
      }
      ScheduleBillsDistinct(rest, now, fired);
      DistinctConcat(ScheduleBill(b, now, fired), ScheduleBills(rest, now, fired));
    }
  }

  /** What a scheduling pass does: the timers it starts and the toasts it shows. */
  datatype Plan = Plan(timers: seq<Timer>, toasts: seq<Toast>)

  /**
   A scheduling pass. Without notification permission it starts no timer and
   only shows the error toast. With permission it starts exactly the
   schedulable timers of the listed bills: paid bills, bills not due after
   `now`, thresholds whose key is recorded and thresholds already passed are
   skipped. When the ids are distinct, no timer is started twice.
   */
  function SchedulePass(bills: seq<Bill>, now: int, fired: set<string>, granted: bool): (p: Plan)
    ensures !granted ==> p == Plan([], [Toast(ToastError, PermissionMissing, None)])
    ensures granted ==> p.toasts == []
    ensures forall tm :: tm in p.timers <==> granted && tm.bill in bills && Schedulable(tm, now, fired)
    ensures UniqueIds(bills) ==> Distinct(p.timers)
  {
    if !granted then Plan([], [Toast(ToastError, PermissionMissing, None)])
    else
      ScheduleBillsDistinct(bills, now, fired);
      Plan(ScheduleBills(bills, now, fired), [])
  }

  /**
   The at-due-time threshold of an eligible bill is always scheduled when
   its key is not recorded, since its delay `due - now` is positive.
   */
  lemma ExpiredAlwaysScheduled(bills: seq<Bill>, b: Bill, now: int, fired: set<string>)
    requires b in bills && Eligible(b, now)
    requires Key(b.id, "expired") !in fired
    ensures Timer(b, Expired, b.dueAt - now) in SchedulePass(bills, now, fired, true).timers
    ensures b.dueAt - now > 0
  {
  }

  /**
   As written, the timeout goes to the timer unchecked. For a bill due 30
   days ahead every threshold's delay is above `MaxTimeout` and wraps to a
   negative value, so all three timers the pass starts go off at once. The
   expired timer then records `${id}-expired`, and at the real due instant
   the sweep's just-expired window, which the bill is then in, stays quiet.
   */
  lemma DistantBillAlertsAtOnce(b: Bill, now: int, withSound: bool)
    requires !b.isPaid && b.dueAt == now + 30 * DayMs
    ensures forall t: Threshold :: Timer(b, t, b.dueAt - now - Offset(t)) in SchedulePass([b], now, {}, true).timers
    ensures forall t: Threshold :: b.dueAt - now - Offset(t) > MaxTimeout
    ensures forall t: Threshold :: EffectiveTimeout(b.dueAt - now - Offset(t)) == 0
    ensures
      var expired := FireTimer(Timer(b, Expired, b.dueAt - now), {}, true);
      && Sweep.InWindow(b, b.dueAt + 1, Expired)
      && Sweep.CheckThreshold(b, Expired, b.dueAt + 1, expired.fired, withSound).alerts == []
  {
    forall t: Threshold ensures EffectiveTimeout(b.dueAt - now - Offset(t)) == 0 {
      WrapsToZero(b.dueAt - now - Offset(t));
    }
    var expired := FireTimer(Timer(b, Expired, b.dueAt - now), {}, true);
    RecordedKeyQuiet(b, Expired, b.dueAt + 1, expired.fired, withSound);
  }

  /**
   A timeout of 50 days wraps past 2^32 to a positive delay of about
   seven hours: the timer goes off early rather than at once.
   */
  lemma FiftyDaysWrapsToHours()
    ensures EffectiveTimeout(50 * DayMs) == 50 * DayMs - 0x1_0000_0000
    ensures 6 * HourMs < EffectiveTimeout(50 * DayMs) < 7 * HourMs
  {
    assert (50 * DayMs) % 0x1_0000_0000 == 50 * DayMs - 0x1_0000_0000;
  }

  /** A timeout above `MaxTimeout` but below 2^32 wraps to a negative value, so it counts as 0. */
  lemma WrapsToZero(timeout: int)
    requires MaxTimeout < timeout < 0x1_0000_0000
    ensures EffectiveTimeout(timeout) == 0
  {
    assert timeout % 0x1_0000_0000 == timeout;
  }

  /** A sweep window whose key is recorded shows nothing. */
  lemma RecordedKeyQuiet(b: Bill, t: Threshold, now: int, fired: set<string>, withSound: bool)
    requires !b.isPaid && Key(b.id, SweepName(t)) in fired
    ensures Sweep.CheckThreshold(b, t, now, fired, withSound).alerts == []
  {
  }

  /**
   The intended timer for a delay of any length: armed for at most
   `MaxTimeout` at a time and re-armed each time a stretch runs out, until
   the whole delay has passed. A delay within `MaxTimeout` is one stretch.
   */
  function Stretches(timeout: nat): (r: seq<int>)
    ensures |r| > 0
    ensures forall k | 0 <= k < |r| :: 0 <= r[k] <= MaxTimeout
    decreases timeout
  {
    if timeout <= MaxTimeout then [timeout] else [MaxTimeout] + Stretches(timeout - MaxTimeout)
  }

  /** The time a chain of timers armed one after another takes to go off. */
  function Elapsed(stretches: seq<int>): int {
    if stretches == [] then 0 else EffectiveTimeout(stretches[0]) + Elapsed(stretches[1..])
  }

  /**
   The re-armed timer goes off exactly when the delay has passed, so at the
   threshold instant, whatever the delay; for a delay within `MaxTimeout` it
   is the single timer the program starts.
   */
  lemma {:induction false} StretchesEndOnTime(timeout: nat)
    ensures Elapsed(Stretches(timeout)) == timeout
    ensures timeout <= MaxTimeout ==> Stretches(timeout) == [timeout] && EffectiveTimeout(timeout) == timeout
  {
    if timeout > MaxTimeout {
      StretchesEndOnTime(timeout - MaxTimeout);
      assert Stretches(timeout)[1..] == Stretches(timeout - MaxTimeout);
    }
  }

  /** What an alert does outside the fired-set. */
  datatype Effect = PlaySound | ShowNotification(title: string, tag: string) | ShowToast(toast: Toast)

  datatype FireOutcome = FireOutcome(fired: set<string>, effects: seq<Effect>)

  /**
   A timer going off, as written: with permission it starts the sound;
   whatever the permission, it shows the toast (info 6 s, warning 8 s,
   error 10 s for warning, urgent, expired) and records `${id}-${type}`;
   with permission the platform notification (tag `bill-${id}-${type}`)
   follows once the service worker is ready, so after the toast. It does
   not look at the fired-set or at the bill's current paid state first.
   */
  function FireTimer(tm: Timer, fired: set<string>, granted: bool): (r: FireOutcome)
    ensures r.fired == fired + {Key(tm.bill.id, TimerName(tm.threshold))}
    ensures |r.effects| == if granted then 3 else 1
    ensures granted ==>
      r.effects[0] == PlaySound
      && r.effects[2] == ShowNotification(Title(tm.bill.name, tm.threshold), Tag(tm.bill.id, tm.threshold))
    ensures r.effects[if granted then 1 else 0].ShowToast?
    ensures
      var toast := r.effects[if granted then 1 else 0].toast;
      && toast.title == Title(tm.bill.name, tm.threshold)
      && (tm.threshold == Warning ==> toast.severity == ToastInfo && toast.duration == Some(6000))
      && (tm.threshold == Urgent ==> toast.severity == ToastWarning && toast.duration == Some(8000))
      && (tm.threshold == Expired ==> toast.severity == ToastError && toast.duration == Some(10000))
  {
    var toast := ShowToast(AlertToast(tm.bill.name, tm.threshold));
    var notification := ShowNotification(Title(tm.bill.name, tm.threshold), Tag(tm.bill.id, tm.threshold));
    var effects := if granted then [PlaySound, toast, notification] else [toast];
    FireOutcome(fired + {Key(tm.bill.id, TimerName(tm.threshold))}, effects)
  }

  /**
   As written, a threshold can alert twice: every change of the bill list
   runs a new pass, and a pass started before the first timer went off
   starts a second timer for the same threshold; both timeouts end at the
   same instant and each timer shows its alert.
   */
  lemma RescheduledThresholdAlertsTwice(b: Bill, now1: int, now2: int, fired: set<string>, granted: bool)
    requires !b.isPaid && Key(b.id, "warning") !in fired
    requires now1 <= now2 && now2 + DayMs <= b.dueAt
    ensures
      var tm1 := Timer(b, Warning, b.dueAt - now1 - DayMs);
      var tm2 := Timer(b, Warning, b.dueAt - now2 - DayMs);
      var first := FireTimer(tm1, fired, granted);
      var second := FireTimer(tm2, first.fired, granted);
      && tm1 in SchedulePass([b], now1, fired, true).timers
      && tm2 in SchedulePass([b], now2, fired, true).timers
      && now1 + tm1.timeout == now2 + tm2.timeout
      && ShowToast(AlertToast(b.name, Warning)) in first.effects
      && ShowToast(AlertToast(b.name, Warning)) in second.effects
  {
  }

  /**
   The intended timer callback: the threshold's key ends up recorded either
   way; it has an effect exactly when the key was not recorded before, and
   then it shows the threshold's toast, with the sound first when permission
   is granted.
   */
  function FireTimerOnce(tm: Timer, fired: set<string>, granted: bool): (r: FireOutcome)
    ensures r.fired == fired + {Key(tm.bill.id, TimerName(tm.threshold))}
    ensures r.effects == [] <==> Key(tm.bill.id, TimerName(tm.threshold)) in fired
    ensures Key(tm.bill.id, TimerName(tm.threshold)) !in fired ==>
      && ShowToast(AlertToast(tm.bill.name, tm.threshold)) in r.effects
      && (granted ==> r.effects[0] == PlaySound)
  {
    if Key(tm.bill.id, TimerName(tm.threshold)) in fired then FireOutcome(fired, [])
    else FireTimer(tm, fired, granted)
  }

  /**
   With the intended callback, two timers for the same bill id and
   threshold show at most one alert between them, whatever the permission
   when each goes off.
   */
  lemma FireTimerOnceAlertsOnce(tm1: Timer, tm2: Timer, fired: set<string>, g1: bool, g2: bool)
    requires tm1.bill.id == tm2.bill.id && tm1.threshold == tm2.threshold
    ensures
      var first := FireTimerOnce(tm1, fired, g1);
      FireTimerOnce(tm2, first.fired, g2) == FireOutcome(first.fired, [])
  {
  }

  /** A timer adds only its key, so the fired-set keeps having no id-like entry. */
  lemma FireAddsNoUuidLikeEntry(tm: Timer, fired: set<string>, granted: bool)
    requires Sweep.NoUuidLikeEntry(fired)
    ensures Sweep.NoUuidLikeEntry(FireTimer(tm, fired, granted).fired)
  {
    KeyIsNotUuidLike(tm.bill.id, TimerName(tm.threshold));
  }

  /** Two positions of a list with unique ids that carry the same id are the same bill. */
  lemma SameIdSameBill(bills: seq<Bill>, b1: Bill, b2: Bill)
    requires UniqueIds(bills) && b1 in bills && b2 in bills && b1.id == b2.id
    ensures b1 == b2
  {
  }

  /** A pass depends on the fired-set only through the timer keys of its eligible bills. */
  lemma {:induction false} ScheduleBillsSameKeys(bills: seq<Bill>, now: int, f1: set<string>, f2: set<string>)
    requires forall b, t | b in bills && Eligible(b, now) ::
      Key(b.id, TimerName(t)) in f1 <==> Key(b.id, TimerName(t)) in f2
    ensures ScheduleBills(bills, now, f1) == ScheduleBills(bills, now, f2)
  {
    if bills != [] {
      var b := bills[0];
      if Eligible(b, now) {
        assert Key(b.id, TimerName(Warning)) in f1 <==> Key(b.id, TimerName(Warning)) in f2;
        assert Key(b.id, TimerName(Urgent)) in f1 <==> Key(b.id, TimerName(Urgent)) in f2;
        assert Key(b.id, TimerName(Expired)) in f1 <==> Key(b.id, TimerName(Expired)) in f2;
      }
      ScheduleBillsSameKeys(bills[1..], now, f1, f2);
    }
  }

  /**
   When the bill list changes, the hook runs a sweep at once and the
   scheduling pass after the permission request settles, so the pass sees
   the sweep's keys. For a list with unique ids this changes nothing: the
   sweep's `-24h`/`-2h` keys never match a timer key, and its `-expired`
   keys belong to bills already past due, which the pass skips anyway.
   */
  lemma SweepDoesNotSuppressScheduling(bills: seq<Bill>, now: int, fired: set<string>, withSound: bool, granted: bool)
    requires UniqueIds(bills)
    ensures
      var swept := Sweep.CheckUpcomingBills(bills, now, fired, withSound);
      SchedulePass(bills, now, swept.fired, granted) == SchedulePass(bills, now, fired, granted)
  {
    var swept := Sweep.CheckUpcomingBills(bills, now, fired, withSound);
    forall b, t | b in bills && Eligible(b, now)
      ensures Key(b.id, TimerName(t)) in swept.fired <==> Key(b.id, TimerName(t)) in fired
    {
      SweepKeyIsNoTimerKey(bills, now, fired, swept, b, t);
    }
    ScheduleBillsSameKeys(bills, now, swept.fired, fired);
  }

  /** A key recorded by a sweep over bills with unique ids is never the timer key of an eligible bill. */
  lemma SweepKeyIsNoTimerKey(bills: seq<Bill>, now: int, fired: set<string>, swept: Sweep.Outcome, b: Bill, t: Threshold)
    requires UniqueIds(bills) && Sweep.Recorded(fired, swept)
    requires forall a | a in swept.alerts :: exists b', t' :: b' in bills && Sweep.Explains(b', t', now, a)
    requires b in bills && Eligible(b, now)
    ensures Key(b.id, TimerName(t)) in swept.fired <==> Key(b.id, TimerName(t)) in fired
  {
    var k := Key(b.id, TimerName(t));
    if k in swept.fired && k !in fired {
      assert k in Sweep.AlertKeys(swept.alerts);
      var a :| a in swept.alerts && a.key == k;
      var b', t' :| b' in bills && Sweep.Explains(b', t', now, a);
      SweepAndTimerKeysMeetOnlyAtExpired(b'.id, t', b.id, t);
      SameIdSameBill(bills, b', b);
      assert false;
    }
  }
}

=== FILE: sweep.dfy ===
/**
 The periodic sweep over the bills (run once when the list changes and then
 every minute): each unpaid bill is compared with three strict time windows
 and each window alerts at most once, by recording a key in the fired-set.
 The copy in useNotifications.tsx also plays the alert sound after each
 toast (`withSound`); the copy in useNotifications.ts does not.
 */
module Sweep {
  import opened Bills
  import opened Alerts

  /**
   The sweep's windows: due within the next 24 hours, due within the next
   2 hours, and due within the last hour. All bounds are strict, so a bill
   due exactly at `now` is in none of them.
   */
  predicate InWindow(b: Bill, now: int, t: Threshold) {
    match t
    case Warning => now < b.dueAt < now + DayMs
    case Urgent => now < b.dueAt < now + 2 * HourMs
    case Expired => now - HourMs < b.dueAt < now
  }

  /** A toast the sweep shows, with the fired-set key it recorded for it. */
  datatype SweepAlert = SweepAlert(key: string, toast: Toast, sound: bool)

  /** The fired-set after a step and the alerts the step showed, in order. */
  datatype Outcome = Outcome(fired: set<string>, alerts: seq<SweepAlert>)

  function AlertKeys(alerts: seq<SweepAlert>): set<string> {
    set a | a in alerts :: a.key
  }

  /**
   The alerts of a step starting from `before` each recorded a key that was
   not there yet, no two the same, and the fired-set grew by exactly those keys.
   */
  predicate Recorded(before: set<string>, r: Outcome) {
    && r.fired == before + AlertKeys(r.alerts)
    && (forall i | 0 <= i < |r.alerts| :: r.alerts[i].key !in before)
    && (forall i, j | 0 <= i < j < |r.alerts| :: r.alerts[i].key != r.alerts[j].key)
  }

  /** `a` is the alert for threshold `t` of the unpaid bill `b`, in its window. */
  predicate Explains(b: Bill, t: Threshold, now: int, a: SweepAlert) {
    && !b.isPaid
    && InWindow(b, now, t)
    && a.key == Key(b.id, SweepName(t))
    && a.toast == AlertToast(b.name, t)
  }

  /**
   Nothing is left for the sweep to do for `b` given the fired-set `f`: the
   bill is paid, its bare id is in the set, or every window it is in has
   its key recorded.
   */
  predicate Saturated(b: Bill, now: int, f: set<string>) {
    b.isPaid || b.id in f || forall t :: InWindow(b, now, t) ==> Key(b.id, SweepName(t)) in f
  }

  /** One threshold of one bill: alert and record the key when the bill is in
      the window and the key is not recorded yet. */
  function CheckThreshold(b: Bill, t: Threshold, now: int, fired: set<string>, withSound: bool): (r: Outcome)
    requires !b.isPaid
    ensures Recorded(fired, r)
    ensures forall a | a in r.alerts :: Explains(b, t, now, a) && a.sound == withSound
    ensures InWindow(b, now, t) ==> Key(b.id, SweepName(t)) in r.fired
  {
    var key := Key(b.id, SweepName(t));
    if InWindow(b, now, t) && key !in fired then
      Outcome(fired + {key}, [SweepAlert(key, AlertToast(b.name, t), withSound)])
    else
      Outcome(fired, [])
  }

  /** Recording in two steps is recording the alerts of both. */
  lemma RecordedChain(f0: set<string>, r1: Outcome, r2: Outcome)
    requires Recorded(f0, r1) && Recorded(r1.fired, r2)
    ensures Recorded(f0, Outcome(r2.fired, r1.alerts + r2.alerts))
  {
  }

  /**
   One bill's turn in the sweep. A paid bill, or one whose bare id is in the
   fired-set, is skipped. Otherwise the 24-hour, 2-hour and just-expired
   windows are looked at in that order and each fires at most once.
   */
  function CheckBill(b: Bill, now: int, fired: set<string>, withSound: bool): (r: Outcome)
    ensures Recorded(fired, r)
    ensures forall a | a in r.alerts :: exists t :: Explains(b, t, now, a)
    ensures forall a | a in r.alerts :: a.sound == withSound
    ensures Saturated(b, now, r.fired)
    ensures b.isPaid ==> r == Outcome(fired, [])
    ensures b.id in fired ==> r == Outcome(fired, [])
  {
    if b.isPaid || b.id in fired then Outcome(fired, [])
    else
      var r1 := CheckThreshold(b, Warning, now, fired, withSound);
      var r2 := CheckThreshold(b, Urgent, now, r1.fired, withSound);
      var r3 := CheckThreshold(b, Expired, now, r2.fired, withSound);
      RecordedChain(fired, r1, r2);
      RecordedChain(fired, Outcome(r2.fired, r1.alerts + r2.alerts), r3);
      Outcome(r3.fired, r1.alerts + r2.alerts + r3.alerts)
  }

  /**
   `checkUpcomingBills`: every bill in list order. The fired-set only grows,
   by exactly the keys of the alerts shown, each alert is new and shown
   once, each is the alert of an unpaid bill of the list for a window it is
   in, and afterwards no bill of the list has anything left to fire.
   */
  function CheckUpcomingBills(bills: seq<Bill>, now: int, fired: set<string>, withSound: bool): (r: Outcome)
    ensures fired <= r.fired
    ensures Recorded(fired, r)
    ensures forall a | a in r.alerts :: exists b, t :: b in bills && Explains(b, t, now, a)
    ensures forall a | a in r.alerts :: exists b, t :: b in bills && b.id !in fired && Explains(b, t, now, a)
    ensures forall a | a in r.alerts :: a.sound == withSound
    ensures forall b | b in bills :: Saturated(b, now, r.fired)
  {
    if bills == [] then Outcome(fired, [])
    else
      var r1 := CheckBill(bills[0], now, fired, withSound);
      var r2 := CheckUpcomingBills(bills[1..], now, r1.fired, withSound);
      RecordedChain(fired, r1, r2);
      assert forall b | b in bills :: b == bills[0] || b in bills[1..];
      SkipCarriesOver(bills, now, fired, r1, r2);
      Outcome(r2.fired, r1.alerts + r2.alerts)
  }

  /**
   The alerts of the first bill's turn and of the rest of the sweep all
   belong to listed bills whose bare id was not in the fired-set at the start.
   */
  lemma SkipCarriesOver(bills: seq<Bill>, now: int, fired: set<string>, r1: Outcome, r2: Outcome)
    requires bills != [] && fired <= r1.fired
    requires forall a | a in r1.alerts :: exists t :: Explains(bills[0], t, now, a)
    requires bills[0].id in fired ==> r1.alerts == []
    requires forall a | a in r2.alerts :: exists b, t :: b in bills[1..] && b.id !in r1.fired && Explains(b, t, now, a)
    ensures forall a | a in r1.alerts + r2.alerts :: exists b, t :: b in bills && b.id !in fired && Explains(b, t, now, a)
  {
    forall a | a in r1.alerts + r2.alerts
      ensures exists b, t :: b in bills && b.id !in fired && Explains(b, t, now, a)
    {
      if a in r1.alerts {
        var t :| Explains(bills[0], t, now, a);
        assert bills[0] in bills;
      } else {
        var b, t :| b in bills[1..] && b.id !in r1.fired && Explains(b, t, now, a);
        assert b in bills;
      }
    }
  }

  /** A sweep shows exactly as many alerts as it adds keys. */
  lemma {:induction false} AlertCountIsNewKeyCount(before: set<string>, r: Outcome)
    requires Recorded(before, r)
    ensures |r.alerts| == |r.fired - before|
    decreases |r.alerts|
  {
    if r.alerts != [] {
      var last := r.alerts[|r.alerts| - 1];
      var init := Outcome(r.fired - {last.key}, r.alerts[..|r.alerts| - 1]);
      assert AlertKeys(r.alerts) == AlertKeys(init.alerts) + {last.key} by {
        assert r.alerts == init.alerts + [last];
      }
      forall a | a in init.alerts ensures a.key != last.key {
        var i :| 0 <= i < |init.alerts| && init.alerts[i] == a;
        assert r.alerts[i] == a;
      }
      AlertCountIsNewKeyCount(before, init);
      assert r.fired - before == (init.fired - before) + {last.key};
    }
  }

  /** A sweep in which nothing is left to fire shows nothing and changes nothing. */
  lemma {:induction false} SaturatedSweepIsQuiet(bills: seq<Bill>, now: int, fired: set<string>, withSound: bool)
    requires forall b | b in bills :: Saturated(b, now, fired)
    ensures CheckUpcomingBills(bills, now, fired, withSound) == Outcome(fired, [])
  {
    if bills != [] {
      var b := bills[0];
      assert Saturated(b, now, fired);
      assert CheckBill(b, now, fired, withSound) == Outcome(fired, []);
      SaturatedSweepIsQuiet(bills[1..], now, fired, withSound);
    }
  }

  /**
   Idempotence: a second sweep over the same bills at the same instant shows
   no alert and leaves the fired-set as the first sweep left it.
   */
  lemma SweepTwiceFiresNothing(bills: seq<Bill>, now: int, fired: set<string>, withSound: bool)
    ensures
      var first := CheckUpcomingBills(bills, now, fired, withSound);
      CheckUpcomingBills(bills, now, first.fired, withSound) == Outcome(first.fired, [])
  {
    var first := CheckUpcomingBills(bills, now, fired, withSound);
    SaturatedSweepIsQuiet(bills, now, first.fired, withSound);
  }

  /** A bill due exactly at `now` is in no window and fires nothing. */
  lemma DueNowFiresNothing(b: Bill, now: int, fired: set<string>, withSound: bool)
    requires b.dueAt == now
    ensures CheckBill(b, now, fired, withSound) == Outcome(fired, [])
  {
  }

  /**
   The 2-hour window lies inside the 24-hour window, so an unpaid bill first
   seen less than two hours before it is due gets both the 24-hour and the
   2-hour alert, in that order, in one sweep.
   */
  lemma WithinTwoHoursFiresBoth(b: Bill, now: int, fired: set<string>, withSound: bool)
    requires !b.isPaid && b.id !in fired
    requires Key(b.id, "24h") !in fired && Key(b.id, "2h") !in fired
    requires now < b.dueAt < now + 2 * HourMs
    ensures InWindow(b, now, Urgent) ==> InWindow(b, now, Warning)
    ensures CheckBill(b, now, fired, withSound).alerts ==
      [SweepAlert(Key(b.id, "24h"), AlertToast(b.name, Warning), withSound),
       SweepAlert(Key(b.id, "2h"), AlertToast(b.name, Urgent), withSound)]
  {
  }

  /** No entry of the fired-set looks like a generated bill id. */
  predicate NoUuidLikeEntry(fired: set<string>) {
    forall k | k in fired :: !UuidLike(k)
  }

  /**
   The sweep adds only keys, so a fired-set without id-like entries (the
   initial empty one, for instance) keeps having none.
   */
  lemma SweepAddsNoUuidLikeEntry(bills: seq<Bill>, now: int, fired: set<string>, withSound: bool)
    requires NoUuidLikeEntry(fired)
    ensures NoUuidLikeEntry(CheckUpcomingBills(bills, now, fired, withSound).fired)
  {
    ExplainedAlertsAddNoUuidLikeEntry(bills, now, fired, CheckUpcomingBills(bills, now, fired, withSound));
  }

  lemma ExplainedAlertsAddNoUuidLikeEntry(bills: seq<Bill>, now: int, fired: set<string>, r: Outcome)
    requires NoUuidLikeEntry(fired) && Recorded(fired, r)
    requires forall a | a in r.alerts :: exists b, t :: b in bills && Explains(b, t, now, a)
    ensures NoUuidLikeEntry(r.fired)
  {
    forall k | k in r.fired && k !in fired ensures !UuidLike(k) {
      assert k in AlertKeys(r.alerts);
      var a :| a in r.alerts && a.key == k;
      var b, t :| b in bills && Explains(b, t, now, a);
      KeyIsNotUuidLike(b.id, SweepName(t));
    }
  }

  /** An unpaid bill not skipped by its bare id alerts for every window it is in whose key is unrecorded. */
  lemma UnrecordedWindowAlerts(b: Bill, t: Threshold, now: int, fired: set<string>, withSound: bool)
    requires !b.isPaid && b.id !in fired
    requires InWindow(b, now, t) && Key(b.id, SweepName(t)) !in fired
    ensures SweepAlert(Key(b.id, SweepName(t)), AlertToast(b.name, t), withSound) in CheckBill(b, now, fired, withSound).alerts
  {
  }

  /**
   The bare-id test of the sweep never skips a bill whose id was generated
   by `crypto.randomUUID` while the fired-set holds only keys: no key can
   equal such an id.
   */
  lemma BareIdNeverSkips(b: Bill, now: int, fired: set<string>, withSound: bool)
    requires UuidLike(b.id) && NoUuidLikeEntry(fired)
    ensures b.id !in fired
    ensures !b.isPaid ==> forall t | InWindow(b, now, t) && Key(b.id, SweepName(t)) !in fired ::
      SweepAlert(Key(b.id, SweepName(t)), AlertToast(b.name, t), withSound) in CheckBill(b, now, fired, withSound).alerts
  {
  }

  /** `clearCheckedNotifications`: the fired-set becomes empty. */
  function ClearChecked(fired: set<string>): set<string> {
    {}
  }

  /**
   A recorded key keeps its window quiet; once the fired-set is cleared, the
   same window of the same unpaid bill alerts again.
   */
  lemma ClearLetsWindowsFireAgain(b: Bill, t: Threshold, now: int, fired: set<string>, withSound: bool)
    requires !b.isPaid && InWindow(b, now, t)
    requires b.id !in fired
    requires Key(b.id, SweepName(t)) in fired
    ensures CheckThreshold(b, t, now, fired, withSound).alerts == []
    ensures ClearChecked(fired) == {}
    ensures SweepAlert(Key(b.id, SweepName(t)), AlertToast(b.name, t), withSound)
      in CheckBill(b, now, ClearChecked(fired), withSound).alerts
  {
    UnrecordedWindowAlerts(b, t, now, {}, withSound);
  }
}

=== FILE: text.dfy ===
/**
 String helpers the components rely on: JavaScript's `trim`, lower-casing,
 `includes`, and the ordering used to sort names and date keys.
 */
module Text {

  /**
   The code points JavaScript's `String.prototype.trim` removes: the
   WhiteSpace set (tab, vertical tab, form feed, space, no-break space,
   byte order mark and the Space_Separator category) and the LineTerminator
   set (line feed, carriage return, line and paragraph separators).
   */
  predicate IsJsWhitespace(c: char) {
    || c == '\t' || c == '\n' || c == '\U{000B}' || c == '\U{000C}' || c == '\r'
    || c == ' ' || c == '\U{00A0}' || c == '\U{1680}'
    || ('\U{2000}' <= c <= '\U{200A}')
    || c == '\U{2028}' || c == '\U{2029}' || c == '\U{202F}' || c == '\U{205F}'
    || c == '\U{3000}' || c == '\U{FEFF}'
  }

  predicate AllWhitespace(s: string) {
    forall k | 0 <= k < |s| :: IsJsWhitespace(s[k])
  }

  /** The number of whitespace characters `s` starts with. */
  function LeadingSpace(s: string): (n: nat)
    ensures n <= |s|
    ensures forall k | 0 <= k < n :: IsJsWhitespace(s[k])
    ensures n < |s| ==> !IsJsWhitespace(s[n])
  {
    if |s| > 0 && IsJsWhitespace(s[0]) then 1 + LeadingSpace(s[1..]) else 0
  }

  /** The position where the whitespace `s` ends with begins. */
  function TrailingStart(s: string): (j: nat)
    ensures j <= |s|
    ensures forall k | j <= k < |s| :: IsJsWhitespace(s[k])
    ensures j > 0 ==> !IsJsWhitespace(s[j - 1])
  {
    if |s| > 0 && IsJsWhitespace(s[|s| - 1]) then TrailingStart(s[..|s| - 1]) else |s|
  }

  /**
   JavaScript's `trim`: the result is a slice of `s` that neither starts nor
   ends with whitespace, and only whitespace was cut off either side; it is
   empty exactly when `s` is all whitespace.
   */
  function Trim(s: string): (r: string)
    ensures exists i, j | 0 <= i <= j <= |s| ::
      && r == s[i..j]
      && (forall k | 0 <= k < i :: IsJsWhitespace(s[k]))
      && (forall k | j <= k < |s| :: IsJsWhitespace(s[k]))
    ensures r == [] || (!IsJsWhitespace(r[0]) && !IsJsWhitespace(r[|r| - 1]))
    ensures r == [] <==> AllWhitespace(s)
  {
    var i := LeadingSpace(s);
    var j := i + TrailingStart(s[i..]);
    assert forall k | j <= k < |s| :: s[k] == s[i..][k - i];
    s[i..j]
  }

  /** Lower-cases an ASCII capital letter and leaves every other character alone. */
  function LowerChar(c: char): (d: char)
    ensures 'A' <= c <= 'Z' ==> 'a' <= d <= 'z' && d as int - c as int == 32
    ensures !('A' <= c <= 'Z') ==> d == c
  {
    if 'A' <= c <= 'Z' then (c as int + 32) as char else c
  }

  /** `toLowerCase`, restricted to the ASCII letters. */
  function Lower(s: string): (r: string)
    ensures |r| == |s|
    ensures forall k | 0 <= k < |s| :: r[k] == LowerChar(s[k])
  {
    seq(|s|, k requires 0 <= k < |s| => LowerChar(s[k]))
  }

  /** `t` occurs in `s` starting at position `i`. */
  predicate OccursAt(s: string, t: string, i: int) {
    0 <= i <= |s| - |t| && s[i..i + |t|] == t
  }

  /** `s.includes(t)`: `t` occurs in `s` at some position. */
  predicate Contains(s: string, t: string) {
    exists i | 0 <= i <= |s| - |t| :: OccursAt(s, t, i)
  }

  /** Every string includes the empty string. */
  lemma ContainsEmpty(s: string)
    ensures Contains(s, "")
  {
    assert OccursAt(s, "", 0);
  }

  /** `s` ends with `t`. */
  predicate EndsWith(s: string, t: string) {
    |t| <= |s| && s[|s| - |t|..] == t
  }

  /** Two strings that are equal and end the same way agree before that end. */
  lemma CancelEnd(a: string, b: string, t: string)
    requires a + t == b + t
    ensures a == b
  {
    assert a == (a + t)[..|a|];
    assert b == (b + t)[..|b|];
  }

  /** Two strings that are equal and start the same way agree after that start. */
  lemma CancelStart(p: string, a: string, b: string)
    requires p + a == p + b
    ensures a == b
  {
    assert a == (p + a)[|p|..];
    assert b == (p + b)[|p|..];
  }

  /** When `a + x == b + y`, the shorter of `x` and `y` ends the longer. */
  lemma EqualEnds(a: string, x: string, b: string, y: string)
    requires a + x == b + y
    requires |x| <= |y|
    ensures EndsWith(y, x)
  {
    var s := a + x;
    assert s[|s| - |x|..] == x;
    assert s[|s| - |y|..] == y;
    assert y[|y| - |x|..] == s[|s| - |x|..];
  }

  /**
   Lexicographic order on strings, character by character, a proper prefix
   coming first: the order `localeCompare` is approximated by.
   */
  predicate LexLe(a: string, b: string) {
    if a == [] then true
    else if b == [] then false
    else if a[0] != b[0] then a[0] < b[0]
    else LexLe(a[1..], b[1..])
  }

  lemma {:induction false} LexLeTotal(a: string, b: string)
    ensures LexLe(a, b) || LexLe(b, a)
  {
    if a != [] && b != [] && a[0] == b[0] {
      LexLeTotal(a[1..], b[1..]);
    }
  }

  lemma {:induction false} LexLeTransitive(a: string, b: string, c: string)
    requires LexLe(a, b) && LexLe(b, c)
    ensures LexLe(a, c)
  {
    if a != [] && b != [] && c != [] && a[0] == b[0] && b[0] == c[0] {
      LexLeTransitive(a[1..], b[1..], c[1..]);
    }
  }

  lemma {:induction false} LexLeAntisymmetric(a: string, b: string)
    requires LexLe(a, b) && LexLe(b, a)
    ensures a == b
  {
    if a != [] && b != [] {
      LexLeAntisymmetric(a[1..], b[1..]);
      assert a == [a[0]] + a[1..];
      assert b == [b[0]] + b[1..];
    }
  }
}

/** Facts about sequences that the list views share. */
module Seqs {

  /** `a` is `b` with some elements removed and the rest kept in order. */
  predicate IsSubsequence<T(==)>(a: seq<T>, b: seq<T>)
    decreases |b|
  {
    if a == [] then true
    else if b == [] then false
    else (a[0] == b[0] && IsSubsequence(a[1..], b[1..])) || IsSubsequence(a, b[1..])
  }

  /** A subsequence uses each element at most as often as the whole does. */
  lemma {:induction false} SubsequenceMultiset<T>(a: seq<T>, b: seq<T>)
    requires IsSubsequence(a, b)
    ensures multiset(a) <= multiset(b)
    ensures |a| <= |b|
    decreases |b|
  {
    if a != [] {
      assert b == [b[0]] + b[1..];
      if a[0] == b[0] && IsSubsequence(a[1..], b[1..]) {
        SubsequenceMultiset(a[1..], b[1..]);
        assert a == [a[0]] + a[1..];
      } else {
        SubsequenceMultiset(a, b[1..]);
      }
    }
  }

  /** No element occurs twice. */
  predicate Distinct<T(==)>(s: seq<T>) {
    forall i, j | 0 <= i < j < |s| :: s[i] != s[j]
  }

  /** Two lists without repeats and without common elements join to one without repeats. */
  lemma DistinctConcat<T>(a: seq<T>, b: seq<T>)
    requires Distinct(a) && Distinct(b)
    requires forall x | x in a :: x !in b
    ensures Distinct(a + b)
  {
    var ab := a + b;
    forall i, j | 0 <= i < j < |ab| ensures ab[i] != ab[j] {
      if i < |a| && j >= |a| {
        assert ab[i] in a && ab[j] == b[j - |a|];
      } else if i >= |a| {
        assert ab[i] == b[i - |a|] && ab[j] == b[j - |a|];
      }
    }
  }
}

=== FILE: types.dfy ===
/** Optional values, used where the application has an `undefined` or a `null`. */
module Wrappers {

  datatype Option<+T> = None | Some(value: T)
}

/**
 The records the application stores: a Bill, and the data the entry form hands
 over when a new bill is submitted.
 */
module Bills {

  /** Milliseconds in one hour and in one day. */
  const HourMs: int := 60 * 60 * 1000
  const DayMs: int := 24 * HourMs

  /**
   A stored bill. `dueDate` ("yyyy-MM-dd") and `dueTime` ("HH:MM") are the
   strings the application keeps; `dueAt` is the instant, in milliseconds,
   that the application obtains by parsing `${dueDate}T${dueTime}` as local
   time. The parser is not part of this model, so the instant is carried
   alongside the strings it comes from.
   */
  datatype Bill = Bill(
    id: string,
    name: string,
    amount: real,
    dueDate: string,
    dueTime: string,
    isPaid: bool,
    createdAt: string,
    dueAt: int
  )

  /** What the form submits: a bill without id, paid flag and creation time. */
  datatype BillFormData = BillFormData(
    name: string,
    amount: real,
    dueDate: string,
    dueTime: string
  )

  /** True when no two positions of the list carry the same id. */
  predicate UniqueIds(bills: seq<Bill>) {
    forall i, j | 0 <= i < j < |bills| :: bills[i].id != bills[j].id
  }

  /** The ids of the bills in a list. */
  function Ids(bills: seq<Bill>): set<string> {
    set b | b in bills :: b.id
  }
}

=== FILE: urgency.dfy ===
/**
 How a bill card classifies its bill for display: paid, overdue ("Vencido"),
 due within three days ("Vence em breve") or on track ("Em dia"), and the
 border colour and status label chosen from that. There is no separate
 24-hour bucket on the card.
 */
module Urgency {
  import opened Wrappers
  import opened Bills

  /** The "due soon" horizon of a card: three days. */
  const DueSoonMs: int := 3 * DayMs

  datatype Status = Paid | Overdue | DueSoon | OnTrack

  datatype Border = GreenBorder | DestructiveBorder | AmberBorder | NoBorder

  /** An unpaid bill whose due instant lies strictly before `now`. */
  predicate IsOverdue(b: Bill, now: int) {
    !b.isPaid && b.dueAt < now
  }

  /** An unpaid, not overdue bill due strictly before `now` plus three days. */
  predicate IsDueSoon(b: Bill, now: int) {
    !b.isPaid && !IsOverdue(b, now) && b.dueAt < now + DueSoonMs
  }

  /**
   The status of a card, as half-open intervals of the due instant: before
   `now` is overdue, `now` itself up to (not including) `now` plus three days
   is due soon, and from there on the bill is on track.
   */
  function Classify(b: Bill, now: int): (s: Status)
    ensures s == Paid <==> b.isPaid
    ensures s == Overdue <==> !b.isPaid && b.dueAt < now
    ensures s == DueSoon <==> !b.isPaid && now <= b.dueAt < now + 3 * DayMs
    ensures s == OnTrack <==> !b.isPaid && now + 3 * DayMs <= b.dueAt
  {
    if b.isPaid then Paid
    else if IsOverdue(b, now) then Overdue
    else if IsDueSoon(b, now) then DueSoon
    else OnTrack
  }

  /** A paid bill is neither overdue nor due soon, and no bill is both. */
  lemma OverdueAndDueSoonExclusive(b: Bill, now: int)
    ensures b.isPaid ==> !IsOverdue(b, now) && !IsDueSoon(b, now)
    ensures !(IsOverdue(b, now) && IsDueSoon(b, now))
    ensures IsOverdue(b, now) <==> Classify(b, now) == Overdue
    ensures IsDueSoon(b, now) <==> Classify(b, now) == DueSoon
  {
  }

  /** The left border of a card: green when paid, red when overdue, amber when due soon. */
  function CardBorder(b: Bill, now: int): (c: Border)
    ensures c == GreenBorder <==> b.isPaid
    ensures c == DestructiveBorder <==> IsOverdue(b, now)
    ensures c == AmberBorder <==> IsDueSoon(b, now)
    ensures c == NoBorder <==> Classify(b, now) == OnTrack
  {
    if b.isPaid then GreenBorder
    else if IsOverdue(b, now) then DestructiveBorder
    else if IsDueSoon(b, now) then AmberBorder
    else NoBorder
  }

  /** The label next to the paid switch. */
  function PaidLabel(b: Bill): string {
    if b.isPaid then "Pago" else "Pendente"
  }

  /** The status line at the foot of a card, shown only for unpaid bills. */
  function StatusLabel(b: Bill, now: int): (l: Option<string>)
    ensures l.None? <==> b.isPaid
    ensures l == Some("Vencido") <==> Classify(b, now) == Overdue
    ensures l == Some("Vence em breve") <==> Classify(b, now) == DueSoon
    ensures l == Some("Em dia") <==> Classify(b, now) == OnTrack
  {
    if b.isPaid then None
    else if IsOverdue(b, now) then Some("Vencido")
    else if IsDueSoon(b, now) then Some("Vence em breve")
    else Some("Em dia")
  }

  /** Position of an unpaid status along Vencido, Vence em breve, Em dia. */
  function Rank(s: Status): nat {
    match s
    case Overdue => 0
    case DueSoon => 1
    case OnTrack => 2
    case Paid => 3
  }

  /**
   For a fixed `now`, a later due instant never gives a more urgent status:
   statuses only move from overdue to due soon to on track.
   */
  lemma LaterDueIsLessUrgent(b1: Bill, b2: Bill, now: int)
    requires !b1.isPaid && !b2.isPaid
    requires b1.dueAt <= b2.dueAt
    ensures Rank(Classify(b1, now)) <= Rank(Classify(b2, now))
  {
  }

  /** For a fixed bill, time passing never makes its status less urgent. */
  lemma LaterNowIsMoreUrgent(b: Bill, now1: int, now2: int)
    requires !b.isPaid
    requires now1 <= now2
    ensures Rank(Classify(b, now2)) <= Rank(Classify(b, now1))
  {
  }
}
